=== FILE: README.md ===
# Library catalog page: filtering, sorting and display helpers

This project models the pure core of `scripts/library.js`, the script behind a
static book-catalog page. The page loads a list of books, lets the reader
filter them with a free-text query and sort them with a selector, writes a
result counter, and formats edition numbers and ISBNs in a detail view.

The model is written in Dafny, one module per concern:

- `JsStrings` (`strings.dfy`): the JavaScript string operations the page
  relies on. These are `split` and `join` on one character, `trim`, `toLowerCase`,
  `includes`, `replace(/;/g, …)`, `String(n)` for integers, and `parseInt`
  reading a number back.
- `Catalog` (`catalog.dfy`): the dataset entry, the record built from it, the
  card snippet (the first author), and the author line of the detail view.
- `Search` (`search.dfy`): the haystack of a record and the query filter.
- `StableSort` (`stable_sort.dfy`): `Array.prototype.sort` with a consistent
  comparator. It is a stable insertion sort. It is proved to be the only
  result that is a sorted, tie-order-keeping permutation of its input.
- `Ordering` (`ordering.dfy`): the five selector comparators, the default
  comparator, and the newest-first and oldest-first comparators. Each is
  proved consistent.
- `Labels` (`labels.dfy`): the result counter after filtering and at start-up.
- `Formatting` (`formatting.dfy`): `ordinal` and `formatISBN`.
- `Library` (`library.dfy`): `applyFilters`, `sortNewestFirst`,
  `sortOldestFirst` and the start-up step.

Choices that differ from the source:

- The source stores the year as the string `date = String(year)` and reads it
  back with `parseInt`. The model keeps the integer year, which
  `JsStrings.ParseIntOfDecimal` justifies.
- `new Date(y, 0, 1)` reads the years 0 to 99 as 1900 to 1999. The model keeps
  that as `Ordering.DateYear`.

## Model

| member | source | states |
|---|---|---|
| JsStrings.Split | scripts/library.js:62 | `split(';')` yields one more part than there are separators. No part holds the separator. Joining the parts with it gives back the input. The first part is the text before the first separator. |
| JsStrings.SplitJoin | scripts/library.js:62 | Splitting undoes joining when no part holds the separator. |
| JsStrings.Trim | scripts/library.js:62 | `trim()` returns a contiguous piece of its input. The piece has only whitespace around it and no whitespace at either end. |
| JsStrings.LowerConcat | scripts/library.js:94-95 | Lowercasing distributes over concatenation. |
| JsStrings.ContainsWithin | scripts/library.js:96 | `includes` finds a needle inside any text that surrounds a piece containing it. |
| JsStrings.ReplaceAllIsSplitJoin | scripts/library.js:185 | A global one-character replacement equals splitting on the character and joining with the replacement. |
| JsStrings.ReplaceAllLength | scripts/library.js:185 | Each replaced character turns into `\|rep\|` characters. |
| JsStrings.ReplaceAllCountOther | scripts/library.js:185 | Any other character keeps its occurrences and gains those in each copy of the replacement. |
| JsStrings.NatToDecimal | scripts/library.js:113 | `String(n)` is a non-empty run of digits with no leading zero. |
| JsStrings.DecimalRoundTrip | scripts/library.js:113 | The value of `String(n)` is `n`. |
| JsStrings.ParseIntOfDecimal | scripts/library.js:107-108 | `parseInt(String(n) + x)` is `n` for every integer `n` and every text `x` that does not start with a digit. The one other exception is `n = 0` with `x` starting with `x` or `X`, which `parseInt` reads as a hexadecimal prefix. |
| JsStrings.ParseInt | scripts/library.js:107-108 | Radix-less `parseInt`: skips leading whitespace, reads one optional sign, reads base 16 after `0x` or `0X` and base 10 otherwise, and gives `NaN` when no digit follows. It has no contract of its own. `ParseIntOfDecimal` and the examples below state what it reads. |
| JsStrings.ParseIntSkipsWhitespace | scripts/library.js:41 | Whitespace before the number does not change what `parseInt` reads. |
| JsStrings.ParseIntHexExample | scripts/library.js:41 | Without a radix, `parseInt("0x1A")` is 26. |
| JsStrings.ParseIntSignExample | scripts/library.js:41 | `parseInt(" -12px")` is -12: leading whitespace is skipped, the minus sign is kept and trailing text is ignored. |
| JsStrings.ParseIntPlusExample | scripts/library.js:41 | `parseInt("+7")` is 7. |
| JsStrings.ParseIntNoDigitsExample | scripts/library.js:41 | `parseInt("px")` is `NaN`. |
| JsStrings.DigitPrefixUnique | scripts/library.js:113-116 | A digit run followed by a non-digit is determined by the whole text. |
| JsStrings.RemoveSeparatorOfJoin | scripts/library.js:319 | Deleting the separators of a join leaves the parts run together. |
| Catalog.Snippet | scripts/library.js:62 | The snippet has no `;` and no whitespace at either end. It is the trimmed text before the first `;` of `author`. |
| Catalog.AuthorsDisplay | scripts/library.js:185 | The author line has no `;`. It is the authors joined by ` · `. |
| Catalog.AuthorsDisplaySeparators | scripts/library.js:185 | The author line has one more middle dot per `;`, and two more characters per `;`. |
| Catalog.ToBook | scripts/library.js:58-69 | Each record carries its entry's fields. Its snippet is the trimmed first author of the entry's `author` text, so it has no `;`. |
| Catalog.LoadBooks | scripts/library.js:58-69 | One record per entry, in dataset order. |
| Catalog.LoadedRecords | scripts/library.js:58-69 | A record is in the loaded list exactly when some dataset entry converts to it. |
| Search.Haystack | scripts/library.js:94-95 | The lowercased title, author, ISBN, publisher, description and tags joined by spaces. It has no contract of its own. `FieldMatch` states that each of these fields is searched, and `TitleAuthorMatch` that a match may span the space between two fields. |
| Search.Matches | scripts/library.js:96 | `hay.includes(query)`. It has no contract of its own. `KeepMembers` and `FilterBooks` state which records it keeps. |
| Search.Keep | scripts/library.js:93-97 | `filter` keeps an order-preserving subsequence. A matching record keeps all its copies; a record that does not match keeps none. |
| Search.KeepMembers | scripts/library.js:93-97 | A record is kept exactly when it is in the input and its haystack contains the query. |
| Search.FilterBooks | scripts/library.js:92-98 | The filtered list is a subsequence of all records. The empty query keeps the list as it is. A non-empty query keeps exactly the matching records. |
| Search.KeepEmptyQuery | scripts/library.js:92-97 | Filtering by the empty query would keep every record, since every haystack contains the empty string. |
| Search.FilterIsKeep | scripts/library.js:92-98 | With or without the empty-query guard, the result is the same. |
| Search.FieldMatch | scripts/library.js:94-96 | A query found in the lowercased title, author, ISBN, publisher, description or any tag matches the record. |
| Search.TitleMatch | scripts/library.js:94-96 | A query found in the lowercased title matches. |
| Search.TitleAuthorMatch | scripts/library.js:94-96 | A query that runs across the space between title and author matches. |
| Search.SpanningMatchExample | scripts/library.js:94-96 | "art knuth" matches a record titled "The Art" by "Knuth". |
| Search.FilterNoMatch | scripts/library.js:92-98 | A non-empty query that no record matches leaves an empty list. |
| Search.FilterKeepsAllOnCommonTitleText | scripts/library.js:92-98 | A query found in every title keeps the whole list. |
| StableSort.Sort | scripts/library.js:101 | `sort` returns a permutation of its input. `SortSorted`, `SortKeepsTiedOrder` and `SortIsUnique` state that it is the stable sorted order. |
| StableSort.InsertSorted | scripts/library.js:101-111 | Inserting into a sorted list keeps it sorted. |
| StableSort.SortSorted | scripts/library.js:101-111 | The sort's result is ordered by the comparator. |
| StableSort.SortKeepsTiedOrder | scripts/library.js:101-111 | The sort is stable: tied elements keep their input order. |
| StableSort.SortIsUnique | scripts/library.js:101-111 | Any permutation that is sorted and keeps tied elements in input order equals the sort's result. |
| StableSort.SortSortedIsIdentity | scripts/library.js:101-111 | An already sorted list is returned unchanged. |
| StableSort.SortIdempotent | scripts/library.js:101-111 | Sorting the sorted list again changes nothing. |
| Ordering.LexCompare | scripts/library.js:103 | `localeCompare` answers -1, 0 or 1. `LexCompareEqual`, `LexCompareSwap` and `LexCompareTransitive` state that it is a total order. |
| Ordering.DateYear | scripts/library.js:41 | `new Date(y, 0, 1)` lands in a year with the same last two digits as `y`. That year is `y` itself except for 0 to 99, which land in 1900 to 1999. |
| Ordering.Compare | scripts/library.js:101-111 | The five selector comparators, the `default` one, and the comparators of `sortNewestFirst` and `sortOldestFirst` (261-278). It has no contract of its own. `CompareAntisymmetric`, `CompareTransitive` and `TiedMeaning` state what it is. |
| Ordering.LexCompareEqual | scripts/library.js:103 | The title comparison is zero exactly on equal titles. |
| Ordering.LexCompareSwap | scripts/library.js:104 | Swapping the titles flips the sign. |
| Ordering.LexCompareTransitive | scripts/library.js:103-104 | The title comparison is transitive, strictly when either step is strict. |
| Ordering.ParseSortKeyNames | scripts/library.js:102-109 | Each option value reaches its case. Exactly the values naming no case reach the default. |
| Ordering.AuthorKey | scripts/library.js:106 | `split(',')[0]` is a prefix of the snippet with no comma in it, which runs up to the first comma or to the end of the snippet. |
| Ordering.CompareAntisymmetric | scripts/library.js:101-111 | Every comparator ties a record with itself and flips sign when its arguments are swapped. |
| Ordering.CompareTransitive | scripts/library.js:261-278 | Every comparator, including the two date comparators, is transitive. |
| Ordering.ComparatorConsistent | scripts/library.js:101-111 | Every comparator of the page meets what a well-defined stable sort needs. |
| Ordering.TiedMeaning | scripts/library.js:102-109 | What a tie means: same year for the year keys, same title for the title keys, same author key for the author key. For the date orderings it means the same `Date` year and the same title. Under the default comparator every pair ties. |
| Formatting.OrdinalSuffix | scripts/library.js:312-314 | The lookup chain always yields one of the four table suffixes. |
| Formatting.Ordinal | scripts/library.js:311-315 | `ordinal(n)` is the decimal text of `n` followed by its English suffix. |
| Formatting.OrdinalSuffixIsEnglish | scripts/library.js:312-314 | The table lookup, with its truncating `%`, missing indices falling through `\|\|`, and `s[-0]` equal to `s[0]`, gives "st", "nd" or "rd" for a last digit of 1, 2 or 3, except after 11, 12 or 13. Every other case gets "th", including all negative numbers. |
| Formatting.NegativeSuffix | scripts/library.js:313-314 | A negative number always gets "th". |
| Formatting.LateSuffix | scripts/library.js:313-314 | From 20 on in the last two digits, the first lookup decides by the last digit. |
| Formatting.EarlySuffix | scripts/library.js:313-314 | Below 20 in the last two digits, the second lookup decides. |
| Formatting.OrdinalExamplesFirst | scripts/library.js:311-315 | 1st, 2nd, 3rd, 4th, 0th. |
| Formatting.OrdinalExamplesTeens | scripts/library.js:311-315 | 11th, 12th, 13th. |
| Formatting.OrdinalExamplesTwenties | scripts/library.js:311-315 | 21st, 22nd. |
| Formatting.OrdinalExamplesLarge | scripts/library.js:311-315 | 101st, 111th, -1th. |
| Formatting.IsbnGroups | scripts/library.js:319 | The groups have 3, 1, 3, 5 and 1 characters and run together to the ISBN. |
| Formatting.FormatIsbn | scripts/library.js:317-322 | A 13-character ISBN becomes its groups joined by hyphens: 17 characters, with hyphens at 3, 5, 9 and 15. Any other length is returned unchanged. |
| Formatting.FormatIsbnSplit | scripts/library.js:317-322 | Splitting the formatted ISBN at its hyphens gives back the five groups. |
| Formatting.FormatIsbnRemoveHyphens | scripts/library.js:317-322 | Deleting the hyphens gives back any ISBN that had none, of any length. |
| Formatting.FormatIsbnExample | scripts/library.js:317-322 | "9780132350884" becomes "978-0-132-35088-4". |
| Formatting.FormatIsbnShortExample | scripts/library.js:317-322 | A ten-character ISBN, "0132350882", is shown as stored. |
| Labels.CountLabel | scripts/library.js:113-116 | The counter text after filtering: the count, "book" or "books", then "found" or "in collection". It has no contract of its own. `LabelsReadBack`, `CountLabelInjective` and the examples state its meaning. |
| Labels.BootLabel | scripts/library.js:302 | The start-up counter: the count followed by "books in collection". It has no contract of its own. `LabelsReadBack` and `BootLabelAgrees` state its meaning. |
| Labels.LabelsReadBack | scripts/library.js:113-116 | Both counters start with the count, which `parseInt` reads back. |
| Labels.CountLabelInjective | scripts/library.js:113-116 | Equal counters come from equal counts, and agree on whether a query is active. |
| Labels.BootLabelAgrees | scripts/library.js:302 | The start-up counter equals the counter `applyFilters` writes for the empty query, except for a single book. |
| Labels.LabelExamplesAll | scripts/library.js:113-116 | "3 books in collection". |
| Labels.LabelExamplesQuery | scripts/library.js:113-116 | One match under a query reads "1 book found". |
| Labels.LabelExamplesNoMatch | scripts/library.js:113-116 | No match under a query reads "0 books found". |
| Labels.LabelExamplesBoot | scripts/library.js:302 | The start-up counter for one book reads "1 books in collection". |
| Library.SortBy | scripts/library.js:101-111 | A sort yields a permutation of its input, ordered by the comparator, with tied records in input order. |
| Library.SortNewestFirst | scripts/library.js:260-268 | `sortNewestFirst` gives a permutation with later `Date` years first. Records of the same year are in ascending title order, and tied records stay in input order. |
| Library.SortOldestFirst | scripts/library.js:271-279 | `sortOldestFirst` gives a permutation with earlier `Date` years first. Records of the same year are in ascending title order, and tied records stay in input order. |
| Library.ApplyFilters | scripts/library.js:89-119 | The list shown is a permutation of the filtered records. It holds exactly the matching records, is ordered by the selected comparator, and keeps tied records in filtered order. The counter is written for its length. |
| Library.ApplyFiltersOrder | scripts/library.js:100-111 | Option by option, for the list `applyFilters` shows: "year-desc" gives non-increasing years and "year-asc" non-decreasing years. "title-asc" gives ascending titles and "title-desc" descending titles. "author-asc" gives ascending author keys. Any value the `switch` does not name leaves the filtered list as it is. |
| Library.YearAscReversesYearDesc | scripts/library.js:107-108 | When no two different filtered records share a year, "year-asc" shows exactly the reverse of the "year-desc" list. |
| Library.YearOrder | scripts/library.js:107-108 | A list is sorted by a year comparator exactly when its years are non-increasing (year-desc) or non-decreasing (year-asc). |
| Library.TitleOrder | scripts/library.js:103-104 | A list is sorted by a title comparator exactly when its titles are ascending (title-asc) or descending (title-desc). |
| Library.AuthorOrder | scripts/library.js:105-106 | A list is sorted by the author comparator exactly when the text before the first comma of each snippet is ascending. |
| Library.NewestFirstOrder | scripts/library.js:260-268 | A list is sorted newest first exactly when later `Date` years come first and same-year records are in ascending title order. |
| Library.OldestFirstOrder | scripts/library.js:271-279 | A list is sorted oldest first exactly when earlier `Date` years come first and same-year records are in ascending title order. |
| Library.ApplyFiltersUnique | scripts/library.js:89-111 | Any permutation of the filtered records with the selector's order and the filtered tie order is the list `applyFilters` shows. |
| Library.UnknownKeyKeepsOrder | scripts/library.js:109 | The default comparator leaves every list unchanged. |
| Library.ResortUnchanged | scripts/library.js:101-111 | Sorting a sorted result again with the same comparator changes nothing. |
| Library.ApplyFiltersIdempotentSort | scripts/library.js:100-111 | Re-sorting the shown list with the same key gives the same list. |
| Library.Boot | scripts/library.js:299-304 | At start-up the page shows a permutation of the loaded records. Later `Date` years come first, records of the same year are in ascending title order, and tied records keep their dataset order. The counter is the "books in collection" text for the number of entries, and `parseInt` reads that number back from it. |
| Library.BootUnique | scripts/library.js:299-304 | Any permutation of the loaded records that is newest first and keeps tied records in dataset order is the start-up list. |
| Library.BootRecords | scripts/library.js:299-304 | The start-up list holds exactly the records made from the dataset's entries. |
| Library.BootNewestFirst | scripts/library.js:299-304 | When every year is at least 100, the start-up list is in non-increasing year order. |

## Left out

- Fetching and parsing the dataset, the loading indicator, and the error message (scripts/library.js:49-56, 305-308) are I/O. The model starts from the parsed entries.
- Card animations, `renderPosts` timing and the 400 ms search debounce (scripts/library.js:15-36, 74-81, 122-137) are timer scheduling.
- HTML templating, the detail overlay, key handling and the catalog URLs (scripts/library.js:141-257) are UI. Only the author line (185) and the calls to `ordinal` and `formatISBN` from that code are modelled.
- Query normalisation (`trim().toLowerCase()` at scripts/library.js:78) happens outside `applyFilters`. The model takes the active query as given.
- `localeCompare` is modelled as lexicographic comparison by code point, returning -1, 0 or 1. Locale collation is not modelled.
- `toLowerCase` is modelled for ASCII letters only. Full Unicode case mapping is not modelled.
- Strings are sequences of code points. JavaScript lengths and `slice` count UTF-16 units, which differ only for characters outside the Basic Multilingual Plane.
- Formatting.FormatIsbn: an ISBN stored as a JSON number is not modelled. The model takes a string; for a number the `slice` calls would throw.
- Formatting.Ordinal: only integer editions are modelled. A missing or fractional edition, and the exponent form `String` uses from 10^21 on, are left out.
- `parseDate` is modelled through the year it lands in. A non-numeric year (giving `NaN`) and years outside the range of `Date` are left out.
- Dataset years are integers. `parseInt` is modelled with exact integers: the rounding of values beyond 2^53 to the nearest double is left out. So is the exponent form `String` uses from 10^21 on (`"1e+21"`, which `parseInt` reads as 1): the model's year sorts order such years by their exact value, where the page would not. So is the `-0` that `parseInt("-0")` gives, which is read as 0.
- `Array.prototype.sort` with an inconsistent comparator is implementation-defined. It is not modelled, because every comparator here is proved consistent.
- The buttons that would call `sortNewestFirst` and `sortOldestFirst` are commented out in the source (scripts/library.js:283-296). Both functions are modelled anyway.

=== FILE: catalog.dfy ===
/**
  The catalog records: the raw entry of the dataset, the record the page
  keeps for each book, and the two author-derived strings it shows (the
  snippet line on a card and the author line of the detail view).
 */
module Catalog {
  import opened JsStrings

  /** One entry of the dataset's `books` array, as parsed. */
  datatype RawBook = RawBook(
    title: string,
    year: int,
    subjects: seq<string>,
    author: string,
    isbn: string,
    publisher: string,
    edition: int,
    description: string)

  /** The record kept in the page's list.  The source stores the year as the
      decimal string `date`; every reader parses it back with `parseInt`, so
      the integer is kept here. */
  datatype Book = Book(
    title: string,
    year: int,
    tags: seq<string>,
    snippet: string,
    author: string,
    isbn: string,
    publisher: string,
    edition: int,
    description: string)

  const AuthorSeparator: char := ';'

  /** The glyph the detail view puts between authors: space, middle dot, space. */
  const AuthorGlyph: string := " \U{00B7} "

  /** `author.split(';')[0].trim()`: the first listed author.  The result
      is the text before the first `;` (or all of `author` when it has none)
      without the whitespace at either end. */
  function Snippet(author: string): (r: string)
    ensures AuthorSeparator !in r
    ensures |r| > 0 ==> !IsWhitespace(r[0]) && !IsWhitespace(r[|r| - 1])
    ensures exists i :: TrimmedAt(author[..FirstIndexOf(author, AuthorSeparator)], r, i)
  {
    var first := Split(author, AuthorSeparator)[0];
    var r := Trim(first);
    ghost var i :| TrimmedAt(first, r, i);
    assert AuthorSeparator !in r by {
      forall m | 0 <= m < |r| ensures r[m] in first {
        assert r[m] == first[i + m];
      }
    }
    r
  }

  /** `author.replace(/;/g, ' · ')`. */
  function AuthorsDisplay(author: string): (r: string)
    ensures AuthorSeparator !in r
    ensures r == Join(Split(author, AuthorSeparator), AuthorGlyph)
  {
    ReplaceAllRemoves(author, AuthorSeparator, AuthorGlyph);
    ReplaceAllIsSplitJoin(author, AuthorSeparator, AuthorGlyph);
    ReplaceAll(author, AuthorSeparator, AuthorGlyph)
  }

  /** The author line shows one separator glyph per `;` of the author
      string: it holds exactly as many more middle dots than `author` as
      `author` has semicolons, and each separator adds two characters. */
  lemma AuthorsDisplaySeparators(author: string)
    ensures CountChar(AuthorsDisplay(author), '\U{00B7}')
         == CountChar(author, '\U{00B7}') + CountChar(author, AuthorSeparator)
    ensures |AuthorsDisplay(author)| == |author| + 2 * CountChar(author, AuthorSeparator)
  {
    var d := ReplaceAll(author, AuthorSeparator, AuthorGlyph);
    assert AuthorsDisplay(author) == d;
    var n := CountChar(author, AuthorSeparator);
    assert |AuthorGlyph| == 3;
    assert CountChar(AuthorGlyph, '\U{00B7}') == 1 by {
      assert AuthorGlyph[1..][1..][1..] == [];
    }
    ReplaceAllCountOther(author, AuthorSeparator, AuthorGlyph, '\U{00B7}');
    assert n * CountChar(AuthorGlyph, '\U{00B7}') == n;
    ReplaceAllLength(author, AuthorSeparator, AuthorGlyph);
    assert n * |AuthorGlyph| == 3 * n;
  }

  /** The mapping applied to each dataset entry when the books are loaded. */
  function ToBook(raw: RawBook): (b: Book)
    ensures b.title == raw.title && b.year == raw.year && b.tags == raw.subjects
    ensures b.author == raw.author && b.isbn == raw.isbn && b.publisher == raw.publisher
    ensures b.edition == raw.edition && b.description == raw.description
    ensures b.snippet == Snippet(raw.author) && AuthorSeparator !in b.snippet
  {
    Book(raw.title, raw.year, raw.subjects, Snippet(raw.author), raw.author,
         raw.isbn, raw.publisher, raw.edition, raw.description)
  }

  /** `data.books.map(...)`: one record per entry, in dataset order. */
  function LoadBooks(raws: seq<RawBook>): (books: seq<Book>)
    ensures |books| == |raws|
    ensures forall i :: 0 <= i < |raws| ==> books[i] == ToBook(raws[i])
  {
    seq(|raws|, i requires 0 <= i < |raws| => ToBook(raws[i]))
  }

  /** The loaded list holds exactly the records made from the entries. */
  lemma LoadedRecords(raws: seq<RawBook>, b: Book)
    ensures b in LoadBooks(raws) <==> exists i :: 0 <= i < |raws| && b == ToBook(raws[i])
  {
    var loaded := LoadBooks(raws);
    if b in loaded {
      var i :| 0 <= i < |loaded| && loaded[i] == b;
      assert b == ToBook(raws[i]);
    }
    if exists i :: 0 <= i < |raws| && b == ToBook(raws[i]) {
      var i :| 0 <= i < |raws| && b == ToBook(raws[i]);
      assert loaded[i] == b;
    }
  }
}

=== FILE: formatting.dfy ===
/**
  The two display helpers of the detail view: the English ordinal of an
  edition number and the hyphenated form of a thirteen-character ISBN.
 */
module Formatting {
  import opened JsStrings

  // ---------------------------------------------------------------------
  // ordinal

  /** `a % b` in JavaScript for a positive divisor: the quotient is
      truncated toward zero, so the remainder takes the sign of `a`. */
  function JsRem(a: int, b: int): (r: int)
    requires b > 0
    ensures -b < r < b
    ensures a >= 0 ==> r == a % b
    ensures a <= 0 ==> r == -((-a) % b)
  {
    if a >= 0 then a % b else -((-a) % b)
  }

  /** The suffix table `['th', 'st', 'nd', 'rd']`. */
  const Suffixes: seq<string> := ["th", "st", "nd", "rd"]

  /** `s[i]` on an array: `undefined` outside its indices.  The key `-0`
      names the same element as `0`, and integers here have no `-0`. */
  function At(s: seq<string>, i: int): (r: Option<string>)
    ensures r.Some? <==> 0 <= i < |s|
    ensures r.Some? ==> r.value == s[i]
  {
    if 0 <= i < |s| then Some(s[i]) else None
  }

  /** `a || b` where `b` is a string: a missing or empty `a` gives `b`. */
  function OrElse(a: Option<string>, b: string): (r: string)
    ensures a.Some? && a.value != "" ==> r == a.value
    ensures a.None? || a.value == "" ==> r == b
  {
    match a
    case Some(v) => if v != "" then v else b
    case None => b
  }

  /** The suffix `ordinal(n)` appends: `s[(v - 20) % 10] || s[v] || s[0]`
      with `v = n % 100`. */
  function OrdinalSuffix(n: int): (r: string)
    ensures r in Suffixes
  {
    var v := JsRem(n, 100);
    OrElse(At(Suffixes, JsRem(v - 20, 10)), OrElse(At(Suffixes, v), Suffixes[0]))
  }

  /** `ordinal(n)`: the number's decimal text followed by its suffix. */
  function Ordinal(n: int): (r: string)
    ensures |r| == |IntToDecimal(n)| + 2
    ensures r[..|IntToDecimal(n)|] == IntToDecimal(n)
    ensures r[|IntToDecimal(n)|..] == EnglishSuffix(n)
  {
    OrdinalSuffixIsEnglish(n);
    var r := IntToDecimal(n) + OrdinalSuffix(n);
    assert r[|IntToDecimal(n)|..] == OrdinalSuffix(n);
    r
  }

  /** The English rule, stated independently: numbers ending in 11, 12 or
      13 take "th"; otherwise a last digit 1, 2 or 3 takes "st", "nd" or
      "rd" and any other digit "th".  Negative numbers always take "th"
      with the table above. */
  function EnglishSuffix(n: int): string {
    if n < 0 then "th"
    else if 11 <= n % 100 <= 13 then "th"
    else if n % 10 == 1 then "st"
    else if n % 10 == 2 then "nd"
    else if n % 10 == 3 then "rd"
    else "th"
  }

  /** The last digit of a natural number is the last digit of its last two. */
  lemma LastDigitOfLastTwo(n: int)
    requires n >= 0
    ensures (n % 100) % 10 == n % 10
  {
    var q, m := n / 100, n % 100;
    var e, d := m / 10, m % 10;
    assert n == 10 * (10 * q + e) + d;
  }

  /** The suffix table picks the English suffix for every integer. */
  lemma OrdinalSuffixIsEnglish(n: int)
    ensures OrdinalSuffix(n) == EnglishSuffix(n)
  {
    if n < 0 {
      NegativeSuffix(n);
    } else {
      LastDigitOfLastTwo(n);
      if n % 100 >= 20 {
        LateSuffix(n);
      } else {
        EarlySuffix(n);
      }
    }
  }

  lemma NegativeSuffix(n: int)
    requires n < 0
    ensures OrdinalSuffix(n) == "th"
  {
    var v := JsRem(n, 100);
    assert v <= 0;
    assert JsRem(v - 20, 10) <= 0;
  }

  /** From 20 on, the first lookup `s[(v - 20) % 10]` decides. */
  lemma LateSuffix(n: int)
    requires n >= 0 && n % 100 >= 20
    requires (n % 100) % 10 == n % 10
    ensures OrdinalSuffix(n) == EnglishSuffix(n)
  {
    var v := n % 100;
    assert JsRem(n, 100) == v;
    assert JsRem(v - 20, 10) == (v - 20) % 10 == v % 10;
  }

  /** Below 20 the first lookup is `undefined` or `s[0]`, and `s[v]`
      decides. */
  lemma EarlySuffix(n: int)
    requires n >= 0 && n % 100 < 20
    requires (n % 100) % 10 == n % 10
    ensures OrdinalSuffix(n) == EnglishSuffix(n)
  {
    var v := n % 100;
    assert JsRem(n, 100) == v;
    if v == 0 || v == 10 {
      assert JsRem(v - 20, 10) == 0;
    } else if v < 10 {
      assert JsRem(v - 20, 10) == v - 10;
    } else {
      assert JsRem(v - 20, 10) == v - 20;
    }
  }

  /** An ordinal is the decimal text followed by the English suffix. */
  lemma OrdinalIs(n: int, d: string, suffix: string)
    requires IntToDecimal(n) == d && EnglishSuffix(n) == suffix
    ensures Ordinal(n) == d + suffix
  {
  }

  /** Examples: the editions a catalog shows. */
  lemma OrdinalExamplesFirst()
    ensures Ordinal(1) == "1st" && Ordinal(2) == "2nd" && Ordinal(3) == "3rd"
    ensures Ordinal(4) == "4th" && Ordinal(0) == "0th"
  {
    OrdinalIs(1, "1", "st");
    OrdinalIs(2, "2", "nd");
    OrdinalIs(3, "3", "rd");
    OrdinalIs(4, "4", "th");
    OrdinalIs(0, "0", "th");
  }

  lemma OrdinalExamplesTeens()
    ensures Ordinal(11) == "11th" && Ordinal(12) == "12th" && Ordinal(13) == "13th"
  {
    assert NatToDecimal(1) == "1";
    OrdinalIs(11, "11", "th");
    OrdinalIs(12, "12", "th");
    OrdinalIs(13, "13", "th");
  }

  lemma OrdinalExamplesTwenties()
    ensures Ordinal(21) == "21st" && Ordinal(22) == "22nd"
  {
    assert NatToDecimal(2) == "2";
    OrdinalIs(21, "21", "st");
    OrdinalIs(22, "22", "nd");
  }

  lemma OrdinalExamplesLarge()
    ensures Ordinal(101) == "101st" && Ordinal(111) == "111th" && Ordinal(-1) == "-1th"
  {
    assert NatToDecimal(10) == "10" && NatToDecimal(11) == "11";
    OrdinalIs(101, "101", "st");
    OrdinalIs(111, "111", "th");
    OrdinalIs(-1, "-1", "th");
  }

  // ---------------------------------------------------------------------
  // ISBN

  /** The five groups a thirteen-character ISBN is cut into: prefix (3),
      registration group (1), registrant (3), publication (5), check (1). */
  function IsbnGroups(isbn: string): (g: seq<string>)
    requires |isbn| == 13
    ensures |g| == 5
    ensures |g[0]| == 3 && |g[1]| == 1 && |g[2]| == 3 && |g[3]| == 5 && |g[4]| == 1
    ensures g[0] + g[1] + g[2] + g[3] + g[4] == isbn
  {
    [isbn[..3], isbn[3..4], isbn[4..7], isbn[7..12], isbn[12..]]
  }

  /** `formatISBN(isbn)`: a thirteen-character ISBN with its groups joined
      by hyphens; any other length unchanged. */
  function FormatIsbn(isbn: string): (r: string)
    ensures |isbn| != 13 ==> r == isbn
    ensures |isbn| == 13 ==> r == Join(IsbnGroups(isbn), "-")
    ensures |isbn| == 13 ==> |r| == 17 && r[3] == '-' && r[5] == '-' && r[9] == '-' && r[15] == '-'
  {
    if |isbn| == 13 then
      var r := isbn[..3] + "-" + isbn[3..4] + "-" + isbn[4..7] + "-" + isbn[7..12] + "-" + isbn[12..];
      assert r == Join(IsbnGroups(isbn), "-") by {
        var g := IsbnGroups(isbn);
        assert Join(g[3..], "-") == g[3] + "-" + g[4];
        assert Join(g[2..], "-") == g[2] + "-" + Join(g[3..], "-");
        assert Join(g[1..], "-") == g[1] + "-" + Join(g[2..], "-");
      }
      r
    else isbn
  }

  /** Splitting the formatted ISBN at its hyphens gives back its groups,
      when the ISBN itself has no hyphen. */
  lemma FormatIsbnSplit(isbn: string)
    requires |isbn| == 13 && '-' !in isbn
    ensures Split(FormatIsbn(isbn), '-') == IsbnGroups(isbn)
  {
    var g := IsbnGroups(isbn);
    forall i | 0 <= i < 5 ensures '-' !in g[i] {
      assert forall c :: c in g[i] ==> c in isbn;
    }
    SplitJoin(g, '-');
  }

  /** Deleting the hyphens of the formatted text restores an ISBN that had
      none, whatever its length. */
  lemma FormatIsbnRemoveHyphens(isbn: string)
    requires '-' !in isbn
    ensures RemoveChar(FormatIsbn(isbn), '-') == isbn
  {
    if |isbn| == 13 {
      var g := IsbnGroups(isbn);
      forall i | 0 <= i < 5 ensures '-' !in g[i] {
        assert forall c :: c in g[i] ==> c in isbn;
      }
      RemoveSeparatorOfJoin(g, '-');
      FlattenIsbnGroups(isbn);
    } else {
      RemoveCharAbsent(isbn, '-');
    }
  }

  /** Putting the groups back together gives the ISBN. */
  lemma FlattenIsbnGroups(isbn: string)
    requires |isbn| == 13
    ensures Flatten(IsbnGroups(isbn)) == isbn
  {
    var g := IsbnGroups(isbn);
    assert Flatten(g[4..]) == isbn[12..] by { assert g[4..][1..] == []; }
    assert Flatten(g[3..]) == isbn[7..] by {
      assert g[3..][1..] == g[4..];
      assert isbn[7..12] + isbn[12..] == isbn[7..];
    }
    assert Flatten(g[2..]) == isbn[4..] by {
      assert g[2..][1..] == g[3..];
      assert isbn[4..7] + isbn[7..] == isbn[4..];
    }
    assert Flatten(g[1..]) == isbn[3..] by {
      assert g[1..][1..] == g[2..];
      assert isbn[3..4] + isbn[4..] == isbn[3..];
    }
    assert isbn[..3] + isbn[3..] == isbn;
  }

  /** Examples: a thirteen-digit ISBN gets its four hyphens; a ten-digit
      one is shown as stored. */
  lemma FormatIsbnExample()
    ensures FormatIsbn("9780132350884") == "978-0-132-35088-4"
  {
    var s := "9780132350884";
    assert s[..3] == "978";
    assert s[3..4] == "0";
    assert s[4..7] == "132";
    assert s[7..12] == "35088";
    assert s[12..] == "4";
    assert FormatIsbn(s) == "978" + "-" + "0" + "-" + "132" + "-" + "35088" + "-" + "4";
  }

  lemma FormatIsbnShortExample()
    ensures FormatIsbn("0132350882") == "0132350882"
  {
  }
}

=== FILE: labels.dfy ===
/**
  The result counter above the card list: the text written after every
  filter or sort, and the text written once when the books are loaded.
 */
module Labels {
  import opened JsStrings

  /** `book${n !== 1 ? 's' : ''}` with the space before it. */
  function Noun(n: nat): string {
    if n != 1 then " books" else " book"
  }

  /** "found" while a query is active, "in collection" otherwise. */
  function Status(query: string): string {
    if query != "" then " found" else " in collection"
  }

  /** The counter after `applyFilters`: `${n} book(s)` followed by the
      status. */
  function CountLabel(n: nat, query: string): string {
    NatToDecimal(n) + (Noun(n) + Status(query))
  }

  /** The counter written at start-up: always "books", whatever the count. */
  function BootLabel(n: nat): string {
    NatToDecimal(n) + " books in collection"
  }

  /** Both counters start with the count: `parseInt` reads it back. */
  lemma LabelsReadBack(n: nat, query: string)
    ensures ParseInt(CountLabel(n, query)) == Some(n)
    ensures ParseInt(BootLabel(n)) == Some(n)
  {
    ParseIntOfDecimal(n, Noun(n) + Status(query));
    ParseIntOfDecimal(n, " books in collection");
  }

  /** The counter tells the count and whether a query is active: equal
      labels come from equal counts and agree on the query being empty. */
  lemma CountLabelInjective(m: nat, n: nat, q1: string, q2: string)
    requires CountLabel(m, q1) == CountLabel(n, q2)
    ensures m == n
    ensures q1 == "" <==> q2 == ""
  {
    var t1 := Noun(m) + Status(q1);
    var t2 := Noun(n) + Status(q2);
    assert t1[0] == ' ' && t2[0] == ' ';
    DigitPrefixUnique(NatToDecimal(m), t1, NatToDecimal(n), t2);
    DecimalInjective(m, n);
    assert |Status(q1)| == |Status(q2)|;
  }

  /** The start-up counter is what `applyFilters` would write for the whole
      collection, except for a single book, which it calls "1 books". */
  lemma BootLabelAgrees(n: nat)
    ensures BootLabel(n) == CountLabel(n, "") <==> n != 1
  {
    var d := NatToDecimal(n);
    if n == 1 {
      assert |BootLabel(n)| == |d| + 20;
      assert |CountLabel(n, "")| == |d| + 19;
    } else {
      assert Noun(n) + Status("") == " books in collection";
    }
  }

  lemma LabelExamplesAll()
    ensures CountLabel(3, "") == "3 books in collection"
  {
    assert NatToDecimal(3) == "3";
    assert CountLabel(3, "") == "3" + (" books" + " in collection");
  }

  lemma LabelExamplesQuery()
    ensures CountLabel(1, "knuth") == "1 book found"
  {
    assert NatToDecimal(1) == "1";
    assert CountLabel(1, "knuth") == "1" + (" book" + " found");
  }

  lemma LabelExamplesNoMatch()
    ensures CountLabel(0, "zzz") == "0 books found"
  {
    assert NatToDecimal(0) == "0";
    assert CountLabel(0, "zzz") == "0" + (" books" + " found");
  }

  lemma LabelExamplesBoot()
    ensures BootLabel(1) == "1 books in collection"
  {
    assert NatToDecimal(1) == "1";
    assert BootLabel(1) == "1" + " books in collection";
  }
}

=== FILE: library.dfy ===
/**
  The list shown by the catalog page: `applyFilters` (filter by the active
  query, sort by the selector, write the counter) and the start-up step
  that shows every loaded book newest first.
 */
module Library {
  import opened JsStrings
  import opened Catalog
  import opened Search
  import opened StableSort
  import opened Ordering
  import opened Labels

  /** What the page shows: the cards in order and the result counter. */
  datatype View = View(books: seq<Book>, counter: string)

  /** `[...books].sort(cmp)` with the comparator of `o`: a new sequence that
      holds the same records, ordered by the comparator, ties in input
      order. */
  function SortBy(o: SortOrder, books: seq<Book>): (r: seq<Book>)
    ensures multiset(r) == multiset(books)
    ensures Sorted(Comparator(o), r)
    ensures KeepsTiedOrder(Comparator(o), books, r)
  {
    ComparatorConsistent(o);
    SortSorted(Comparator(o), books);
    SortKeepsTiedOrder(Comparator(o), books);
    Sort(Comparator(o), books)
  }

  /** `sortNewestFirst(posts)`: a sorted copy, later `Date` years first,
      records of the same `Date` year in ascending title order. */
  function SortNewestFirst(posts: seq<Book>): (r: seq<Book>)
    ensures multiset(r) == multiset(posts)
    ensures KeepsTiedOrder(Comparator(NewestFirst), posts, r)
    ensures forall i, j :: 0 <= i < j < |r| ==>
              || DateYear(r[i].year) > DateYear(r[j].year)
              || (DateYear(r[i].year) == DateYear(r[j].year) && LexCompare(r[i].title, r[j].title) <= 0)
  {
    var r := SortBy(NewestFirst, posts);
    NewestFirstOrder(r);
    r
  }

  /** `sortOldestFirst(posts)`: a sorted copy, earlier `Date` years first,
      records of the same `Date` year in ascending title order. */
  function SortOldestFirst(posts: seq<Book>): (r: seq<Book>)
    ensures multiset(r) == multiset(posts)
    ensures KeepsTiedOrder(Comparator(OldestFirst), posts, r)
    ensures forall i, j :: 0 <= i < j < |r| ==>
              || DateYear(r[i].year) < DateYear(r[j].year)
              || (DateYear(r[i].year) == DateYear(r[j].year) && LexCompare(r[i].title, r[j].title) <= 0)
  {
    var r := SortBy(OldestFirst, posts);
    OldestFirstOrder(r);
    r
  }

  /** `applyFilters()`: the records matching `query`, sorted by the
      selector value `sortValue`, and the counter for that many records. */
  function ApplyFilters(all: seq<Book>, query: string, sortValue: string): (v: View)
    ensures multiset(v.books) == multiset(FilterBooks(all, query))
    ensures forall b :: b in v.books <==> b in all && (query == "" || Matches(b, query))
    ensures Sorted(Comparator(BySelector(ParseSortKey(sortValue))), v.books)
    ensures KeepsTiedOrder(Comparator(BySelector(ParseSortKey(sortValue))), FilterBooks(all, query), v.books)
    ensures v.counter == CountLabel(|v.books|, query)
  {
    var kept := FilterBooks(all, query);
    var books := SortBy(BySelector(ParseSortKey(sortValue)), kept);
    assert forall b :: b in books <==> b in kept by {
      forall b ensures b in books <==> b in kept {
        assert b in books <==> b in multiset(books);
        assert b in kept <==> b in multiset(kept);
      }
    }
    assert |books| == |multiset(books)| == |kept|;
    View(books, CountLabel(|kept|, query))
  }

  /** The start-up step: every dataset entry as a record, newest first, and
      the start-up counter. */
  function Boot(raws: seq<RawBook>): (v: View)
    ensures |v.books| == |raws|
    ensures multiset(v.books) == multiset(LoadBooks(raws))
    ensures forall i, j :: 0 <= i < j < |v.books| ==>
              || DateYear(v.books[i].year) > DateYear(v.books[j].year)
              || (DateYear(v.books[i].year) == DateYear(v.books[j].year)
                  && LexCompare(v.books[i].title, v.books[j].title) <= 0)
    ensures KeepsTiedOrder(Comparator(NewestFirst), LoadBooks(raws), v.books)
    ensures v.counter == BootLabel(|raws|)
    ensures ParseInt(v.counter) == Some(|v.books|)
  {
    var books := SortNewestFirst(LoadBooks(raws));
    assert |books| == |multiset(books)| == |raws|;
    LabelsReadBack(|raws|, "");
    View(books, BootLabel(|raws|))
  }

  /** The start-up list is determined by its order: any permutation of the
      loaded records that is newest first and keeps tied records in dataset
      order is that list. */
  lemma BootUnique(raws: seq<RawBook>, t: seq<Book>)
    requires multiset(t) == multiset(LoadBooks(raws))
    requires Sorted(Comparator(NewestFirst), t)
    requires KeepsTiedOrder(Comparator(NewestFirst), LoadBooks(raws), t)
    ensures t == Boot(raws).books
  {
    ComparatorConsistent(NewestFirst);
    SortIsUnique(Comparator(NewestFirst), LoadBooks(raws), t);
  }

  /** The start-up list holds exactly the records made from the dataset's
      entries. */
  lemma BootRecords(raws: seq<RawBook>, b: Book)
    ensures b in Boot(raws).books <==> exists i :: 0 <= i < |raws| && b == ToBook(raws[i])
  {
    var loaded := LoadBooks(raws);
    var books := Boot(raws).books;
    assert books == SortNewestFirst(loaded);
    assert b in books <==> b in loaded by {
      assert b in books <==> b in multiset(books);
      assert b in loaded <==> b in multiset(loaded);
    }
    LoadedRecords(raws, b);
  }

  // ---------------------------------------------------------------------
  // what the order means

  /** The three properties of `ApplyFilters` determine its list: any
      permutation of the filtered records that is ordered by the selector
      and keeps tied records in filtered order is that list. */
  lemma ApplyFiltersUnique(all: seq<Book>, query: string, sortValue: string, t: seq<Book>)
    requires multiset(t) == multiset(FilterBooks(all, query))
    requires Sorted(Comparator(BySelector(ParseSortKey(sortValue))), t)
    requires KeepsTiedOrder(Comparator(BySelector(ParseSortKey(sortValue))), FilterBooks(all, query), t)
    ensures t == ApplyFilters(all, query, sortValue).books
  {
    var o := BySelector(ParseSortKey(sortValue));
    ComparatorConsistent(o);
    SortIsUnique(Comparator(o), FilterBooks(all, query), t);
  }

  /** A selector value that names no key leaves the filtered order as it is. */
  lemma UnknownKeyKeepsOrder(books: seq<Book>)
    ensures SortBy(BySelector(NoSort), books) == books
  {
    var cmp := Comparator(BySelector(NoSort));
    ComparatorConsistent(BySelector(NoSort));
    SortSortedIsIdentity(cmp, books);
  }

  /** Applying the same selector to its own result changes nothing. */
  lemma ResortUnchanged(o: SortOrder, books: seq<Book>)
    ensures SortBy(o, SortBy(o, books)) == SortBy(o, books)
  {
    ComparatorConsistent(o);
    SortIdempotent(Comparator(o), books);
  }

  /** What each option of the selector does to the shown list, in the
      terms the page uses: the year options order by the integer year, the
      title options by title either way round, the author option by author
      key, and any other value leaves the filtered order as it is. */
  lemma ApplyFiltersOrder(all: seq<Book>, query: string, sortValue: string)
    ensures var r := ApplyFilters(all, query, sortValue).books;
      && (sortValue == "year-desc" ==> forall i, j :: 0 <= i < j < |r| ==> r[i].year >= r[j].year)
      && (sortValue == "year-asc" ==> forall i, j :: 0 <= i < j < |r| ==> r[i].year <= r[j].year)
      && (sortValue == "title-asc" ==>
            forall i, j :: 0 <= i < j < |r| ==> LexCompare(r[i].title, r[j].title) <= 0)
      && (sortValue == "title-desc" ==>
            forall i, j :: 0 <= i < j < |r| ==> LexCompare(r[j].title, r[i].title) <= 0)
      && (sortValue == "author-asc" ==>
            forall i, j :: 0 <= i < j < |r| ==> LexCompare(AuthorKey(r[i]), AuthorKey(r[j])) <= 0)
      && (ParseSortKey(sortValue) == NoSort ==> r == FilterBooks(all, query))
  {
    var r := ApplyFilters(all, query, sortValue).books;
    var k := ParseSortKey(sortValue);
    KeyOrder(k, r);
    if k == NoSort {
      UnknownKeyKeepsOrder(FilterBooks(all, query));
    }
  }

  /** A list sorted by a selector key, in the terms of that key. */
  lemma KeyOrder(k: SortKey, r: seq<Book>)
    requires Sorted(Comparator(BySelector(k)), r)
    ensures k == YearDesc ==> forall i, j :: 0 <= i < j < |r| ==> r[i].year >= r[j].year
    ensures k == YearAsc ==> forall i, j :: 0 <= i < j < |r| ==> r[i].year <= r[j].year
    ensures k == TitleAsc ==> forall i, j :: 0 <= i < j < |r| ==> LexCompare(r[i].title, r[j].title) <= 0
    ensures k == TitleDesc ==> forall i, j :: 0 <= i < j < |r| ==> LexCompare(r[j].title, r[i].title) <= 0
    ensures k == AuthorAsc ==> forall i, j :: 0 <= i < j < |r| ==> LexCompare(AuthorKey(r[i]), AuthorKey(r[j])) <= 0
  {
    match k
    case YearDesc | YearAsc => YearOrder(r);
    case TitleAsc | TitleDesc => TitleOrder(r);
    case AuthorAsc => AuthorOrder(r);
    case NoSort =>
  }

  /** When the filtered records have distinct years, the two year options
      show the same records in exactly opposite orders. */
  lemma YearAscReversesYearDesc(all: seq<Book>, query: string)
    requires forall a, b :: a in FilterBooks(all, query) && b in FilterBooks(all, query) && a.year == b.year ==> a == b
    ensures ApplyFilters(all, query, "year-asc").books == Reverse(ApplyFilters(all, query, "year-desc").books)
  {
    var kept := FilterBooks(all, query);
    var desc := ApplyFilters(all, query, "year-desc").books;
    var asc := BySelector(YearAsc);
    assert ParseSortKey("year-desc") == YearDesc && ParseSortKey("year-asc") == YearAsc;
    ComparatorConsistent(asc);
    ReverseSorted(Comparator(BySelector(YearDesc)), Comparator(asc), desc);
    assert NoTies(Comparator(asc), kept) by {
      forall a, b | a in kept && b in kept && Compare(asc, a, b) == 0 ensures a == b {
        assert a.year == b.year;
      }
    }
    NoTiesKeepsTiedOrder(Comparator(asc), kept, Reverse(desc));
    ApplyFiltersUnique(all, query, "year-asc", Reverse(desc));
  }

  /** The year keys order by the integer year. */
  lemma YearOrder(books: seq<Book>)
    ensures Sorted(Comparator(BySelector(YearDesc)), books) <==>
              forall i, j :: 0 <= i < j < |books| ==> books[i].year >= books[j].year
    ensures Sorted(Comparator(BySelector(YearAsc)), books) <==>
              forall i, j :: 0 <= i < j < |books| ==> books[i].year <= books[j].year
  {
  }

  /** The title keys order by the title comparison, either way round. */
  lemma TitleOrder(books: seq<Book>)
    ensures Sorted(Comparator(BySelector(TitleAsc)), books) <==>
              forall i, j :: 0 <= i < j < |books| ==> LexCompare(books[i].title, books[j].title) <= 0
    ensures Sorted(Comparator(BySelector(TitleDesc)), books) <==>
              forall i, j :: 0 <= i < j < |books| ==> LexCompare(books[j].title, books[i].title) <= 0
  {
  }

  /** The author key orders by the snippet's text before its first comma. */
  lemma AuthorOrder(books: seq<Book>)
    ensures Sorted(Comparator(BySelector(AuthorAsc)), books) <==>
              forall i, j :: 0 <= i < j < |books| ==>
                LexCompare(Split(books[i].snippet, ',')[0], Split(books[j].snippet, ',')[0]) <= 0
  {
  }

  /** Newest first: later `Date` years come first, and records of the same
      `Date` year are in ascending title order. */
  lemma NewestFirstOrder(books: seq<Book>)
    ensures Sorted(Comparator(NewestFirst), books) <==>
              forall i, j :: 0 <= i < j < |books| ==>
                || DateYear(books[i].year) > DateYear(books[j].year)
                || (DateYear(books[i].year) == DateYear(books[j].year)
                    && LexCompare(books[i].title, books[j].title) <= 0)
  {
  }

  /** Oldest first: earlier `Date` years come first, and records of the
      same `Date` year are in ascending title order. */
  lemma OldestFirstOrder(books: seq<Book>)
    ensures Sorted(Comparator(OldestFirst), books) <==>
              forall i, j :: 0 <= i < j < |books| ==>
                || DateYear(books[i].year) < DateYear(books[j].year)
                || (DateYear(books[i].year) == DateYear(books[j].year)
                    && LexCompare(books[i].title, books[j].title) <= 0)
  {
  }

  /** From the year 100 on, the `Date` year is the year itself, so the
      start-up order is by descending year. */
  lemma BootNewestFirst(raws: seq<RawBook>)
    requires forall i :: 0 <= i < |raws| ==> raws[i].year >= 100
    ensures forall i, j :: 0 <= i < j < |Boot(raws).books| ==> Boot(raws).books[i].year >= Boot(raws).books[j].year
  {
    var books := Boot(raws).books;
    forall i | 0 <= i < |books| ensures DateYear(books[i].year) == books[i].year {
      BootRecords(raws, books[i]);
      var k :| 0 <= k < |raws| && books[i] == ToBook(raws[k]);
    }
  }

  /** Re-selecting the same key is harmless: the page sorts a fresh copy of
      the filtered records each time, so the second result equals the first. */
  lemma ApplyFiltersIdempotentSort(all: seq<Book>, query: string, sortValue: string)
    ensures SortBy(BySelector(ParseSortKey(sortValue)), ApplyFilters(all, query, sortValue).books)
         == ApplyFilters(all, query, sortValue).books
  {
    var o := BySelector(ParseSortKey(sortValue));
    ResortUnchanged(o, FilterBooks(all, query));
  }
}

=== FILE: ordering.dfy ===
/**
  The comparators handed to `Array.prototype.sort`: the five choices of the
  sort selector, the selector's fallback, and the newest-first and
  oldest-first orderings used when the page starts.
 */
module Ordering {
  import opened JsStrings
  import opened Catalog
  import opened StableSort

  /** `a.localeCompare(b)`, modelled as plain lexicographic comparison by
      code point: negative, zero or positive. */
  function LexCompare(a: string, b: string): (r: int)
    ensures -1 <= r <= 1
  {
    if |a| == 0 && |b| == 0 then 0
    else if |a| == 0 then -1
    else if |b| == 0 then 1
    else if a[0] < b[0] then -1
    else if a[0] > b[0] then 1
    else LexCompare(a[1..], b[1..])
  }

  /** Lexicographic comparison is a total order: it is zero exactly on
      equal strings, swapping its arguments flips its sign, and it is
      transitive. */
  lemma {:induction false} LexCompareEqual(a: string, b: string)
    ensures LexCompare(a, b) == 0 <==> a == b
  {
    if |a| > 0 && |b| > 0 && a[0] == b[0] {
      LexCompareEqual(a[1..], b[1..]);
      assert a == [a[0]] + a[1..] && b == [b[0]] + b[1..];
    }
  }

  lemma {:induction false} LexCompareSwap(a: string, b: string)
    ensures LexCompare(b, a) == -LexCompare(a, b)
  {
    if |a| > 0 && |b| > 0 && a[0] == b[0] {
      LexCompareSwap(a[1..], b[1..]);
    }
  }

  lemma {:induction false} LexCompareTransitive(a: string, b: string, c: string)
    requires LexCompare(a, b) <= 0 && LexCompare(b, c) <= 0
    ensures LexCompare(a, c) <= 0
    ensures LexCompare(a, b) < 0 || LexCompare(b, c) < 0 ==> LexCompare(a, c) < 0
  {
    if |a| > 0 && |b| > 0 && |c| > 0 && a[0] == b[0] && b[0] == c[0] {
      LexCompareTransitive(a[1..], b[1..], c[1..]);
    }
  }

  /** The values of the sort selector.  `NoSort` stands for any value the
      comparator's `switch` does not name. */
  datatype SortKey = TitleAsc | TitleDesc | AuthorAsc | YearDesc | YearAsc | NoSort

  /** The selector's option value for each named key. */
  function KeyName(k: SortKey): string {
    match k
    case TitleAsc => "title-asc"
    case TitleDesc => "title-desc"
    case AuthorAsc => "author-asc"
    case YearDesc => "year-desc"
    case YearAsc => "year-asc"
    case NoSort => ""
  }

  /** The `switch (sortVal)` of the comparator: which case a selector value
      reaches. */
  function ParseSortKey(value: string): SortKey {
    if value == "title-asc" then TitleAsc
    else if value == "title-desc" then TitleDesc
    else if value == "author-asc" then AuthorAsc
    else if value == "year-desc" then YearDesc
    else if value == "year-asc" then YearAsc
    else NoSort
  }

  /** Every named key is reached by its option value, and exactly the values
      that name no key reach the default case. */
  lemma ParseSortKeyNames(k: SortKey, value: string)
    ensures k != NoSort ==> ParseSortKey(KeyName(k)) == k
    ensures ParseSortKey(value) == NoSort <==>
              forall k' :: k' != NoSort ==> value != KeyName(k')
  {
    if ParseSortKey(value) != NoSort {
      var k' := ParseSortKey(value);
      assert value == KeyName(k');
    }
  }

  /** A comparator: one of the selector's, or a start-up ordering. */
  datatype SortOrder = BySelector(key: SortKey) | NewestFirst | OldestFirst

  /** `a.snippet.split(',')[0]`: the author-sort key. */
  function AuthorKey(b: Book): (r: string)
    ensures |r| <= |b.snippet| && r == b.snippet[..|r|]
    ensures |r| < |b.snippet| ==> b.snippet[|r|] == ','
    ensures ',' !in r
    ensures r == b.snippet[..FirstIndexOf(b.snippet, ',')]
  {
    Split(b.snippet, ',')[0]
  }

  /** The year `new Date(y, 0, 1)` lands in: the Date constructor reads the
      years 0 to 99 as 1900 to 1999. */
  function DateYear(y: int): (r: int)
    ensures r % 100 == y % 100
    ensures r == y <==> !(0 <= y <= 99)
    ensures 0 <= y <= 99 ==> 1900 <= r <= 1999
  {
    if 0 <= y <= 99 then 1900 + y else y
  }

  /** The comparator's value for `(a, b)`: negative puts `a` first,
      positive puts `b` first, zero keeps their order.  For the start-up
      orderings the source subtracts two `Date` values; January 1st of a
      later year is always later, so the difference has the sign of the
      year difference, which is what is kept here. */
  function Compare(o: SortOrder, a: Book, b: Book): int {
    match o
    case BySelector(k) => (
      match k
      case TitleAsc => LexCompare(a.title, b.title)
      case TitleDesc => LexCompare(b.title, a.title)
      case AuthorAsc => LexCompare(AuthorKey(a), AuthorKey(b))
      case YearDesc => b.year - a.year
      case YearAsc => a.year - b.year
      case NoSort => 0)
    case NewestFirst =>
      var d := DateYear(b.year) - DateYear(a.year);
      if d == 0 then LexCompare(a.title, b.title) else d
    case OldestFirst =>
      var d := DateYear(a.year) - DateYear(b.year);
      if d == 0 then LexCompare(a.title, b.title) else d
  }

  /** `Compare(o, _, _)` as the function value handed to the sort. */
  function Comparator(o: SortOrder): (Book, Book) -> int {
    (a: Book, b: Book) => Compare(o, a, b)
  }

  /** A record ties with itself, and swapping the records flips the sign. */
  lemma CompareAntisymmetric(o: SortOrder, a: Book, b: Book)
    ensures Compare(o, a, a) == 0
    ensures Compare(o, a, b) < 0 <==> Compare(o, b, a) > 0
    ensures Compare(o, a, b) == 0 <==> Compare(o, b, a) == 0
  {
    match o
    case BySelector(k) =>
      match k {
        case TitleAsc | TitleDesc =>
          LexCompareSwap(a.title, b.title);
          LexCompareEqual(a.title, a.title);
        case AuthorAsc =>
          LexCompareSwap(AuthorKey(a), AuthorKey(b));
          LexCompareEqual(AuthorKey(a), AuthorKey(a));
        case _ =>
      }
    case _ =>
      LexCompareSwap(a.title, b.title);
      LexCompareEqual(a.title, a.title);
  }

  /** "May precede" is transitive, and strictly so when either step is. */
  lemma CompareTransitive(o: SortOrder, a: Book, b: Book, c: Book)
    requires Compare(o, a, b) <= 0 && Compare(o, b, c) <= 0
    ensures Compare(o, a, c) <= 0
    ensures Compare(o, a, b) < 0 || Compare(o, b, c) < 0 ==> Compare(o, a, c) < 0
  {
    match o
    case BySelector(k) =>
      match k {
        case TitleAsc => LexCompareTransitive(a.title, b.title, c.title);
        case TitleDesc => LexCompareTransitive(c.title, b.title, a.title);
        case AuthorAsc => LexCompareTransitive(AuthorKey(a), AuthorKey(b), AuthorKey(c));
        case _ =>
      }
    case _ =>
      if DateYear(a.year) == DateYear(b.year) == DateYear(c.year) {
        LexCompareTransitive(a.title, b.title, c.title);
      }
  }

  /** Every comparator of the page is consistent, so every sort it asks for
      has a well-defined result. */
  lemma ComparatorConsistent(o: SortOrder)
    ensures Consistent(Comparator(o))
  {
    var cmp := Comparator(o);
    forall a, b
      ensures cmp(a, a) == 0
      ensures cmp(a, b) < 0 <==> cmp(b, a) > 0
      ensures cmp(a, b) == 0 <==> cmp(b, a) == 0
    {
      CompareAntisymmetric(o, a, b);
    }
    forall a, b, c
      ensures cmp(a, b) <= 0 && cmp(b, c) <= 0 ==> cmp(a, c) <= 0
      ensures cmp(a, b) <= 0 && cmp(b, c) <= 0 && (cmp(a, b) < 0 || cmp(b, c) < 0) ==> cmp(a, c) < 0
    {
      if cmp(a, b) <= 0 && cmp(b, c) <= 0 {
        CompareTransitive(o, a, b, c);
      }
    }
  }

  /** What a tie means for each comparator. */
  lemma TiedMeaning(o: SortOrder, a: Book, b: Book)
    ensures o == BySelector(YearAsc) || o == BySelector(YearDesc) ==> (Compare(o, a, b) == 0 <==> a.year == b.year)
    ensures o == BySelector(TitleAsc) || o == BySelector(TitleDesc) ==> (Compare(o, a, b) == 0 <==> a.title == b.title)
    ensures o == BySelector(AuthorAsc) ==> (Compare(o, a, b) == 0 <==> AuthorKey(a) == AuthorKey(b))
    ensures o == NewestFirst || o == OldestFirst ==>
              (Compare(o, a, b) == 0 <==> DateYear(a.year) == DateYear(b.year) && a.title == b.title)
    ensures o == BySelector(NoSort) ==> Compare(o, a, b) == 0
  {
    LexCompareEqual(a.title, b.title);
    LexCompareEqual(b.title, a.title);
    LexCompareEqual(AuthorKey(a), AuthorKey(b));
  }
}

=== FILE: search.dfy ===
/**
  The free-text filter of the catalog: each record is searched through one
  lowercased text that joins its searchable fields with single spaces.
 */
module Search {
  import opened JsStrings
  import opened Catalog

  /** The searchable fields in the order they are joined: title, author,
      ISBN, publisher, description, then every tag. */
  function SearchFields(b: Book): seq<string> {
    [b.title, b.author, b.isbn, b.publisher, b.description] + b.tags
  }

  /** `[...fields].join(' ').toLowerCase()`. */
  function Haystack(b: Book): string {
    Lower(Join(SearchFields(b), " "))
  }

  /** `hay.includes(query)`. */
  predicate Matches(b: Book, query: string) {
    Contains(Haystack(b), query)
  }

  /** `a` can be obtained from `b` by deleting elements: `a` is an
      order-preserving subsequence of `b`. */
  predicate IsSubsequence<T(==)>(a: seq<T>, b: seq<T>)
    decreases |b|
  {
    || |a| == 0
    || (|b| > 0
        && ((a[0] == b[0] && IsSubsequence(a[1..], b[1..])) || IsSubsequence(a, b[1..])))
  }

  /** `books.filter(b => hay(b).includes(query))`. */
  function Keep(books: seq<Book>, query: string): (r: seq<Book>)
    ensures IsSubsequence(r, books)
    ensures forall b :: multiset(r)[b] == if Matches(b, query) then multiset(books)[b] else 0
  {
    if |books| == 0 then []
    else
      var rest := Keep(books[1..], query);
      assert books == [books[0]] + books[1..];
      if Matches(books[0], query) then [books[0]] + rest
      else
        assert IsSubsequence(rest, books) by {
          if |rest| > 0 { assert IsSubsequence(rest, books[1..]); }
        }
        rest
  }

  /** `Keep` holds exactly the matching records of its input. */
  lemma KeepMembers(books: seq<Book>, query: string)
    ensures forall b :: b in Keep(books, query) <==> b in books && Matches(b, query)
  {
    var r := Keep(books, query);
    forall b ensures b in r <==> b in books && Matches(b, query) {
      assert b in r <==> multiset(r)[b] > 0;
      assert b in books <==> multiset(books)[b] > 0;
    }
  }

  /** The filtering step of `applyFilters`: a non-empty query keeps the
      matching records, the empty query keeps the list as it is. */
  function FilterBooks(books: seq<Book>, query: string): (r: seq<Book>)
    ensures IsSubsequence(r, books)
    ensures query == "" ==> r == books
    ensures query != "" ==> forall b :: b in r <==> b in books && Matches(b, query)
  {
    if query != "" then
      KeepMembers(books, query);
      Keep(books, query)
    else
      SubsequenceOfItself(books);
      books
  }

  lemma {:induction false} SubsequenceOfItself<T>(s: seq<T>)
    ensures IsSubsequence(s, s)
  {
    if |s| > 0 {
      SubsequenceOfItself(s[1..]);
    }
  }

  /** The empty-query guard changes nothing: the empty string occurs in
      every haystack, so filtering by it would keep every record anyway. */
  lemma {:induction false} KeepEmptyQuery(books: seq<Book>)
    ensures Keep(books, "") == books
  {
    if |books| > 0 {
      ContainsEmpty(Haystack(books[0]));
      KeepEmptyQuery(books[1..]);
    }
  }

  /** Filtering, with or without the guard, is `Keep`. */
  lemma FilterIsKeep(books: seq<Book>, query: string)
    ensures FilterBooks(books, query) == Keep(books, query)
  {
    if query == "" {
      KeepEmptyQuery(books);
    }
  }

  /** The title leads the haystack, so a query found in the lowercased
      title always matches. */
  lemma TitleMatch(b: Book, query: string)
    requires Contains(Lower(b.title), query)
    ensures Matches(b, query)
  {
    var fields := SearchFields(b);
    var rest := Join(fields[1..], " ");
    assert Join(fields, " ") == b.title + " " + rest;
    LowerConcat(b.title, " " + rest);
    ContainsWithin("", Lower(b.title), Lower(" " + rest), query);
    assert "" + Lower(b.title) + Lower(" " + rest) == Haystack(b);
  }

  /** Fields are joined with a space before the search, so a query may
      run from the end of the title into the author. */
  lemma TitleAuthorMatch(b: Book, query: string)
    requires Contains(Lower(b.title + " " + b.author), query)
    ensures Matches(b, query)
  {
    var fields := SearchFields(b);
    var rest := Join(fields[2..], " ");
    assert fields[1..][1..] == fields[2..];
    assert Join(fields, " ") == b.title + " " + (b.author + " " + rest);
    assert Join(fields, " ") == (b.title + " " + b.author) + (" " + rest);
    LowerConcat(b.title + " " + b.author, " " + rest);
    ContainsWithin("", Lower(b.title + " " + b.author), Lower(" " + rest), query);
    assert "" + Lower(b.title + " " + b.author) + Lower(" " + rest) == Haystack(b);
  }

  /** Every searchable field is part of the haystack: a query found in the
      lowercased title, author, ISBN, publisher, description or any tag
      matches. */
  lemma FieldMatch(b: Book, f: string, query: string)
    requires || f == b.title || f == b.author || f == b.isbn
             || f == b.publisher || f == b.description || f in b.tags
    requires Contains(Lower(f), query)
    ensures Matches(b, query)
  {
    var fields := SearchFields(b);
    var k: int;
    if f == b.title { k := 0; }
    else if f == b.author { k := 1; }
    else if f == b.isbn { k := 2; }
    else if f == b.publisher { k := 3; }
    else if f == b.description { k := 4; }
    else {
      var t :| 0 <= t < |b.tags| && b.tags[t] == f;
      k := 5 + t;
    }
    assert fields[k] == f;
    JoinHasPart(fields, " ", k);
    var pre, post :| Join(fields, " ") == pre + f + post;
    LowerConcat(pre + f, post);
    LowerConcat(pre, f);
    ContainsWithin(Lower(pre), Lower(f), Lower(post), query);
  }

  lemma SpanningMatchExample(b: Book)
    requires b.title == "The Art" && b.author == "Knuth"
    ensures Matches(b, "art knuth")
  {
    var t := b.title + " " + b.author;
    assert t == "The Art Knuth";
    assert Lower(t)[4..13] == "art knuth";
    assert OccursAt(Lower(t), "art knuth", 4);
    TitleAuthorMatch(b, "art knuth");
  }

  /** A query found in every record's lowercased title keeps the whole list. */
  lemma {:induction false} FilterKeepsAllOnCommonTitleText(books: seq<Book>, query: string)
    requires forall i :: 0 <= i < |books| ==> Contains(Lower(books[i].title), query)
    ensures FilterBooks(books, query) == books
  {
    FilterIsKeep(books, query);
    KeepAllMatching(books, query);
  }

  lemma {:induction false} KeepAllMatching(books: seq<Book>, query: string)
    requires forall i :: 0 <= i < |books| ==> Contains(Lower(books[i].title), query)
    ensures Keep(books, query) == books
  {
    if |books| > 0 {
      TitleMatch(books[0], query);
      KeepAllMatching(books[1..], query);
    }
  }

  /** A query that matches no record leaves nothing. */
  lemma FilterNoMatch(books: seq<Book>, query: string)
    requires query != ""
    requires forall i :: 0 <= i < |books| ==> !Matches(books[i], query)
    ensures FilterBooks(books, query) == []
  {
  }
}

=== FILE: stable_sort.dfy ===
/**
  `Array.prototype.sort` with a consistent comparator.  The language
  requires the sort to be stable, which fixes its result: the one
  permutation of the input that is ordered by the comparator and keeps tied
  elements in their input order.  `Sort` computes it by insertion;
  `SortIsUnique` shows any result with those three properties is the same.
 */
module StableSort {

  /** What `Array.prototype.sort` asks of a comparator for its result to be
      defined: an element ties with itself, swapping the arguments flips the
      sign, and "may precede" (a result `<= 0`) is transitive, strictly so
      when either step is strict. */
  ghost predicate Consistent<T(!new)>(cmp: (T, T) -> int) {
    && (forall a :: cmp(a, a) == 0)
    && (forall a, b :: cmp(a, b) < 0 <==> cmp(b, a) > 0)
    && (forall a, b :: cmp(a, b) == 0 <==> cmp(b, a) == 0)
    && (forall a, b, c {:trigger cmp(a, b), cmp(b, c), cmp(a, c)} ::
          cmp(a, b) <= 0 && cmp(b, c) <= 0 ==> cmp(a, c) <= 0)
    && (forall a, b, c {:trigger cmp(a, b), cmp(b, c), cmp(a, c)} ::
          cmp(a, b) <= 0 && cmp(b, c) <= 0 && (cmp(a, b) < 0 || cmp(b, c) < 0) ==> cmp(a, c) < 0)
  }

  /** Every element may precede every later one. */
  predicate Sorted<T>(cmp: (T, T) -> int, s: seq<T>) {
    forall i, j :: 0 <= i < j < |s| ==> cmp(s[i], s[j]) <= 0
  }

  /** The elements of `s` that tie with `x`, in their order in `s`. */
  function TiedWith<T>(cmp: (T, T) -> int, s: seq<T>, x: T): seq<T> {
    if |s| == 0 then []
    else (if cmp(s[0], x) == 0 then [s[0]] else []) + TiedWith(cmp, s[1..], x)
  }

  /** `t` keeps every group of tied elements in the order `s` has them. */
  ghost predicate KeepsTiedOrder<T(!new)>(cmp: (T, T) -> int, s: seq<T>, t: seq<T>) {
    forall x :: TiedWith(cmp, t, x) == TiedWith(cmp, s, x)
  }

  /** Places `x` into `t` just before the first element that `x` may
      precede, that is, in front of every element it ties with. */
  function Insert<T>(cmp: (T, T) -> int, x: T, t: seq<T>): (r: seq<T>)
    ensures multiset(r) == multiset(t) + multiset{x}
  {
    if |t| == 0 then [x]
    else if cmp(x, t[0]) <= 0 then [x] + t
    else
      assert t == [t[0]] + t[1..];
      [t[0]] + Insert(cmp, x, t[1..])
  }

  /** The sorted copy: `[...s].sort(cmp)`, built by inserting the elements
      one by one from the last to the first, each in front of its ties. */
  function Sort<T>(cmp: (T, T) -> int, s: seq<T>): (r: seq<T>)
    ensures multiset(r) == multiset(s)
  {
    if |s| == 0 then []
    else
      assert s == [s[0]] + s[1..];
      Insert(cmp, s[0], Sort(cmp, s[1..]))
  }

  /** An element that may precede the head of a sorted sequence may
      precede all of it. */
  lemma PrecedesAll<T(!new)>(cmp: (T, T) -> int, x: T, t: seq<T>)
    requires Consistent(cmp)
    requires Sorted(cmp, t)
    requires |t| > 0 && cmp(x, t[0]) <= 0
    ensures forall j :: 0 <= j < |t| ==> cmp(x, t[j]) <= 0
  {
    forall j | 0 < j < |t| ensures cmp(x, t[j]) <= 0 {
      assert cmp(t[0], t[j]) <= 0;
    }
  }

  /** Putting in front of a sorted sequence an element that may precede
      each of its elements keeps it sorted. */
  lemma ConsSorted<T>(cmp: (T, T) -> int, y: T, t: seq<T>)
    requires Sorted(cmp, t)
    requires forall j :: 0 <= j < |t| ==> cmp(y, t[j]) <= 0
    ensures Sorted(cmp, [y] + t)
  {
    var r := [y] + t;
    forall i, j | 0 <= i < j < |r| ensures cmp(r[i], r[j]) <= 0 {
      assert r[j] == t[j - 1];
      if i > 0 {
        assert r[i] == t[i - 1];
      }
    }
  }

  lemma {:induction false} InsertSorted<T(!new)>(cmp: (T, T) -> int, x: T, t: seq<T>)
    requires Consistent(cmp)
    requires Sorted(cmp, t)
    ensures Sorted(cmp, Insert(cmp, x, t))
  {
    if |t| == 0 {
    } else if cmp(x, t[0]) <= 0 {
      PrecedesAll(cmp, x, t);
      ConsSorted(cmp, x, t);
    } else {
      var rest := Insert(cmp, x, t[1..]);
      InsertSorted(cmp, x, t[1..]);
      forall j | 0 <= j < |rest| ensures cmp(t[0], rest[j]) <= 0 {
        assert rest[j] in multiset(rest);
        if rest[j] != x {
          assert rest[j] in multiset(t[1..]);
          var k :| 0 <= k < |t[1..]| && t[1..][k] == rest[j];
          assert cmp(t[0], t[k + 1]) <= 0;
        }
      }
      ConsSorted(cmp, t[0], rest);
    }
  }

  /** The result of `Sort` is ordered by the comparator. */
  lemma {:induction false} SortSorted<T(!new)>(cmp: (T, T) -> int, s: seq<T>)
    requires Consistent(cmp)
    ensures Sorted(cmp, Sort(cmp, s))
  {
    if |s| > 0 {
      SortSorted(cmp, s[1..]);
      InsertSorted(cmp, s[0], Sort(cmp, s[1..]));
    }
  }

  // ---------------------------------------------------------------------
  // stability

  lemma TiedWithCons<T>(cmp: (T, T) -> int, y: T, s: seq<T>, x: T)
    ensures TiedWith(cmp, [y] + s, x) == (if cmp(y, x) == 0 then [y] else []) + TiedWith(cmp, s, x)
  {
    assert ([y] + s)[1..] == s;
  }

  /** Inserting adds the new element at the front of its tie group. */
  lemma {:induction false} InsertKeepsTiedOrder<T(!new)>(cmp: (T, T) -> int, e: T, t: seq<T>, x: T)
    requires Consistent(cmp)
    ensures TiedWith(cmp, Insert(cmp, e, t), x)
         == (if cmp(e, x) == 0 then [e] else []) + TiedWith(cmp, t, x)
  {
    if |t| == 0 {
      TiedWithCons(cmp, e, t, x);
    } else if cmp(e, t[0]) <= 0 {
      TiedWithCons(cmp, e, t, x);
    } else {
      InsertKeepsTiedOrder(cmp, e, t[1..], x);
      var h := t[0];
      assert cmp(e, x) == 0 && cmp(h, x) == 0 ==> cmp(x, h) == 0 && cmp(e, h) <= 0;
      InsertBehindHead(cmp, e, t, x);
    }
  }

  /** The step of `InsertKeepsTiedOrder` where `e` goes behind the head,
      which cannot tie with `x` when `e` does. */
  lemma InsertBehindHead<T>(cmp: (T, T) -> int, e: T, t: seq<T>, x: T)
    requires |t| > 0 && cmp(e, t[0]) > 0
    requires !(cmp(e, x) == 0 && cmp(t[0], x) == 0)
    requires TiedWith(cmp, Insert(cmp, e, t[1..]), x)
          == (if cmp(e, x) == 0 then [e] else []) + TiedWith(cmp, t[1..], x)
    ensures TiedWith(cmp, Insert(cmp, e, t), x)
         == (if cmp(e, x) == 0 then [e] else []) + TiedWith(cmp, t, x)
  {
    var rest := Insert(cmp, e, t[1..]);
    var tail := TiedWith(cmp, t[1..], x);
    assert Insert(cmp, e, t) == [t[0]] + rest;
    TiedWithCons(cmp, t[0], rest, x);
    if cmp(e, x) == 0 {
      assert TiedWith(cmp, rest, x) == [e] + tail;
      assert TiedWith(cmp, t, x) == tail;
    } else {
      assert TiedWith(cmp, rest, x) == tail;
    }
  }

  lemma {:induction false} SortKeepsTiedOrderOf<T(!new)>(cmp: (T, T) -> int, s: seq<T>, x: T)
    requires Consistent(cmp)
    ensures TiedWith(cmp, Sort(cmp, s), x) == TiedWith(cmp, s, x)
  {
    if |s| > 0 {
      assert Sort(cmp, s) == Insert(cmp, s[0], Sort(cmp, s[1..]));
      SortKeepsTiedOrderOf(cmp, s[1..], x);
      InsertKeepsTiedOrder(cmp, s[0], Sort(cmp, s[1..]), x);
    }
  }

  /** The sort is stable: tied elements keep their input order. */
  lemma SortKeepsTiedOrder<T(!new)>(cmp: (T, T) -> int, s: seq<T>)
    requires Consistent(cmp)
    ensures KeepsTiedOrder(cmp, s, Sort(cmp, s))
  {
    forall x ensures TiedWith(cmp, Sort(cmp, s), x) == TiedWith(cmp, s, x) {
      SortKeepsTiedOrderOf(cmp, s, x);
    }
  }

  // ---------------------------------------------------------------------
  // uniqueness

  /** Sorted arrangements of the same elements start with tied elements. */
  lemma HeadsTie<T(!new)>(cmp: (T, T) -> int, t: seq<T>, u: seq<T>)
    requires Consistent(cmp)
    requires multiset(t) == multiset(u)
    requires Sorted(cmp, t) && Sorted(cmp, u)
    requires |t| > 0
    ensures |u| > 0 && cmp(t[0], u[0]) == 0
  {
    assert |u| == |t| by { assert |multiset(u)| == |multiset(t)|; }
    assert u[0] in multiset(u) && t[0] in multiset(t);
    assert u[0] in t && t[0] in u;
    var i :| 0 <= i < |t| && t[i] == u[0];
    var j :| 0 <= j < |u| && u[j] == t[0];
    assert cmp(t[0], u[0]) <= 0 by {
      if i > 0 { assert cmp(t[0], t[i]) <= 0; }
    }
    assert cmp(u[0], t[0]) <= 0 by {
      if j > 0 { assert cmp(u[0], u[j]) <= 0; }
    }
  }

  /** Dropping a common first element keeps both the elements and the tie
      groups in agreement. */
  lemma TailsAgree<T(!new)>(cmp: (T, T) -> int, t: seq<T>, u: seq<T>)
    requires |t| > 0 && |u| > 0 && t[0] == u[0]
    requires multiset(t) == multiset(u)
    requires KeepsTiedOrder(cmp, t, u)
    ensures multiset(t[1..]) == multiset(u[1..])
    ensures KeepsTiedOrder(cmp, t[1..], u[1..])
  {
    var a := t[0];
    assert t == [a] + t[1..] && u == [a] + u[1..];
    assert multiset(t[1..]) == multiset(u[1..]) by {
      assert multiset(t) == multiset{a} + multiset(t[1..]);
      assert multiset(u) == multiset{a} + multiset(u[1..]);
      assert multiset(t[1..]) == multiset(t) - multiset{a};
      assert multiset(u[1..]) == multiset(u) - multiset{a};
    }
    forall x ensures TiedWith(cmp, u[1..], x) == TiedWith(cmp, t[1..], x) {
      var c := if cmp(a, x) == 0 then [a] else [];
      assert TiedWith(cmp, t, x) == c + TiedWith(cmp, t[1..], x);
      assert TiedWith(cmp, u, x) == c + TiedWith(cmp, u[1..], x);
      assert TiedWith(cmp, u, x) == TiedWith(cmp, t, x);
      assert (c + TiedWith(cmp, t[1..], x))[|c|..] == TiedWith(cmp, t[1..], x);
      assert (c + TiedWith(cmp, u[1..], x))[|c|..] == TiedWith(cmp, u[1..], x);
    }
  }

  /** Two sorted arrangements of the same elements that keep every tie group
      in the same order are the same sequence. */
  lemma {:induction false} SortedArrangementUnique<T(!new)>(cmp: (T, T) -> int, t: seq<T>, u: seq<T>)
    requires Consistent(cmp)
    requires multiset(t) == multiset(u)
    requires Sorted(cmp, t) && Sorted(cmp, u)
    requires KeepsTiedOrder(cmp, t, u)
    ensures t == u
  {
    if |t| == 0 {
      assert |u| == |multiset(u)| == 0;
    } else {
      HeadsTie(cmp, t, u);
      var a, b := t[0], u[0];
      assert cmp(b, a) == 0;
      assert TiedWith(cmp, t, a) == [a] + TiedWith(cmp, t[1..], a);
      assert TiedWith(cmp, u, a) == [b] + TiedWith(cmp, u[1..], a);
      assert TiedWith(cmp, u, a) == TiedWith(cmp, t, a);
      assert a == TiedWith(cmp, t, a)[0] == b;
      TailsAgree(cmp, t, u);
      assert Sorted(cmp, t[1..]) && Sorted(cmp, u[1..]);
      SortedArrangementUnique(cmp, t[1..], u[1..]);
    }
  }

  /** `Sort` is the only result a stable sort can give: whatever sequence is
      a sorted permutation of `s` that keeps tied elements in their order in
      `s` equals `Sort(cmp, s)`. */
  lemma SortIsUnique<T(!new)>(cmp: (T, T) -> int, s: seq<T>, t: seq<T>)
    requires Consistent(cmp)
    requires multiset(t) == multiset(s)
    requires Sorted(cmp, t)
    requires KeepsTiedOrder(cmp, s, t)
    ensures t == Sort(cmp, s)
  {
    SortSorted(cmp, s);
    SortKeepsTiedOrder(cmp, s);
    SortedArrangementUnique(cmp, t, Sort(cmp, s));
  }

  /** An already sorted sequence is left as it is. */
  lemma SortSortedIsIdentity<T(!new)>(cmp: (T, T) -> int, s: seq<T>)
    requires Consistent(cmp)
    requires Sorted(cmp, s)
    ensures Sort(cmp, s) == s
  {
    SortIsUnique(cmp, s, s);
  }

  /** Sorting a sorted result again by the same comparator changes nothing. */
  lemma SortIdempotent<T(!new)>(cmp: (T, T) -> int, s: seq<T>)
    requires Consistent(cmp)
    ensures Sort(cmp, Sort(cmp, s)) == Sort(cmp, s)
  {
    SortSorted(cmp, s);
    SortSortedIsIdentity(cmp, Sort(cmp, s));
  }

  // ---------------------------------------------------------------------
  // reversal and lists without ties

  /** `s` read from its last element to its first. */
  function Reverse<T>(s: seq<T>): (r: seq<T>)
    ensures |r| == |s|
    ensures forall i :: 0 <= i < |s| ==> r[i] == s[|s| - 1 - i]
    ensures multiset(r) == multiset(s)
  {
    if |s| == 0 then []
    else
      assert s == [s[0]] + s[1..];
      Reverse(s[1..]) + [s[0]]
  }

  /** Reading a sorted sequence backwards sorts it by the comparator with
      its arguments swapped. */
  lemma ReverseSorted<T>(cmp: (T, T) -> int, flipped: (T, T) -> int, s: seq<T>)
    requires forall a, b :: flipped(a, b) == cmp(b, a)
    requires Sorted(cmp, s)
    ensures Sorted(flipped, Reverse(s))
  {
    var r := Reverse(s);
    forall i, j | 0 <= i < j < |r| ensures flipped(r[i], r[j]) <= 0 {
      assert r[i] == s[|s| - 1 - i] && r[j] == s[|s| - 1 - j];
    }
  }

  /** No two different elements of `s` tie. */
  ghost predicate NoTies<T(!new)>(cmp: (T, T) -> int, s: seq<T>) {
    forall a, b :: a in s && b in s && cmp(a, b) == 0 ==> a == b
  }

  /** The group of `x` holds, of every element that ties with `x`, all its
      copies in `s`, and nothing else. */
  lemma {:induction false} TiedWithCount<T>(cmp: (T, T) -> int, s: seq<T>, x: T, y: T)
    ensures multiset(TiedWith(cmp, s, x))[y] == if cmp(y, x) == 0 then multiset(s)[y] else 0
  {
    if |s| > 0 {
      TiedWithCount(cmp, s[1..], x, y);
      assert s == [s[0]] + s[1..];
    }
  }

  /** Without ties, every element of a group is the same element. */
  lemma TiedWithConstant<T(!new)>(cmp: (T, T) -> int, s: seq<T>, x: T)
    requires Consistent(cmp)
    requires NoTies(cmp, s)
    ensures forall i, j :: 0 <= i < |TiedWith(cmp, s, x)| && 0 <= j < |TiedWith(cmp, s, x)| ==>
              TiedWith(cmp, s, x)[i] == TiedWith(cmp, s, x)[j]
  {
    var g := TiedWith(cmp, s, x);
    forall i, j | 0 <= i < |g| && 0 <= j < |g| ensures g[i] == g[j] {
      var a, b := g[i], g[j];
      assert a in multiset(g) && b in multiset(g);
      TiedWithCount(cmp, s, x, a);
      TiedWithCount(cmp, s, x, b);
      assert cmp(a, x) == 0 && cmp(x, b) == 0;
      assert cmp(a, b) <= 0 && cmp(b, a) <= 0;
    }
  }

  /** Two sequences that each repeat one element and hold the same
      elements are equal. */
  lemma ConstantSequencesEqual<T>(a: seq<T>, b: seq<T>)
    requires multiset(a) == multiset(b)
    requires forall i, j :: 0 <= i < |a| && 0 <= j < |a| ==> a[i] == a[j]
    requires forall i, j :: 0 <= i < |b| && 0 <= j < |b| ==> b[i] == b[j]
    ensures a == b
  {
    assert |a| == |multiset(a)| == |multiset(b)| == |b|;
    if |a| > 0 {
      assert a[0] in multiset(b);
      var k :| 0 <= k < |b| && b[k] == a[0];
      assert forall i :: 0 <= i < |a| ==> a[i] == b[i] by {
        forall i | 0 <= i < |a| ensures a[i] == b[i] {
          assert a[i] == a[0] && b[i] == b[k];
        }
      }
    }
  }

  /** When no two different elements tie, any permutation keeps every
      group in order: a group is copies of one element. */
  lemma NoTiesKeepsTiedOrder<T(!new)>(cmp: (T, T) -> int, s: seq<T>, t: seq<T>)
    requires Consistent(cmp)
    requires multiset(t) == multiset(s)
    requires NoTies(cmp, s)
    ensures KeepsTiedOrder(cmp, s, t)
  {
    assert NoTies(cmp, t) by {
      forall a, b | a in t && b in t && cmp(a, b) == 0 ensures a == b {
        assert a in multiset(s) && b in multiset(s);
      }
    }
    forall x ensures TiedWith(cmp, t, x) == TiedWith(cmp, s, x) {
      forall y ensures multiset(TiedWith(cmp, t, x))[y] == multiset(TiedWith(cmp, s, x))[y] {
        TiedWithCount(cmp, s, x, y);
        TiedWithCount(cmp, t, x, y);
      }
      assert multiset(TiedWith(cmp, t, x)) == multiset(TiedWith(cmp, s, x));
      TiedWithConstant(cmp, s, x);
      TiedWithConstant(cmp, t, x);
      ConstantSequencesEqual(TiedWith(cmp, t, x), TiedWith(cmp, s, x));
    }
  }
}

=== FILE: strings.dfy ===
/**
  The JavaScript string operations the catalog page relies on, over `string`
  (a sequence of `char`): `split` and `join` with a single-character
  separator, `trim`, ASCII `toLowerCase`, `includes`, `replace(/c/g, …)`,
  the decimal rendering of an integer and `parseInt` reading it back.
 */
module JsStrings {

  /** A value that may be missing (`undefined` or `NaN` in the source). */
  datatype Option<T> = None | Some(value: T)

  /** Characters removed by `String.prototype.trim`: the ECMAScript
      WhiteSpace and LineTerminator code points. */
  predicate IsWhitespace(c: char) {
    || c == '\t' || c == '\n' || c == '\U{000B}' || c == '\U{000C}' || c == '\r'
    || c == ' ' || c == '\U{00A0}' || c == '\U{1680}'
    || ('\U{2000}' <= c <= '\U{200A}')
    || c == '\U{2028}' || c == '\U{2029}' || c == '\U{202F}' || c == '\U{205F}'
    || c == '\U{3000}' || c == '\U{FEFF}'
  }

  predicate IsDigit(c: char) {
    '0' <= c <= '9'
  }

  predicate AllDigits(s: string) {
    forall i :: 0 <= i < |s| ==> IsDigit(s[i])
  }

  /** Number of occurrences of `c` in `s`. */
  function CountChar(s: string, c: char): nat {
    if |s| == 0 then 0 else (if s[0] == c then 1 else 0) + CountChar(s[1..], c)
  }

  lemma {:induction false} CountCharConcat(a: string, b: string, c: char)
    ensures CountChar(a + b, c) == CountChar(a, c) + CountChar(b, c)
  {
    if |a| == 0 {
      assert a + b == b;
    } else {
      assert (a + b)[1..] == a[1..] + b;
      CountCharConcat(a[1..], b, c);
    }
  }

  lemma {:induction false} CountCharAbsent(s: string, c: char)
    ensures CountChar(s, c) == 0 <==> c !in s
  {
    if |s| > 0 {
      CountCharAbsent(s[1..], c);
      assert s == [s[0]] + s[1..];
    }
  }

  // ---------------------------------------------------------------------
  // join / split

  /** `parts.join(sep)`: the parts with `sep` between neighbours; the empty
      array joins to the empty string. */
  function Join(parts: seq<string>, sep: string): string
    decreases |parts|
  {
    if |parts| == 0 then ""
    else if |parts| == 1 then parts[0]
    else parts[0] + sep + Join(parts[1..], sep)
  }

  /** Every part appears whole in the joined text. */
  lemma {:induction false} JoinHasPart(parts: seq<string>, sep: string, k: int)
    requires 0 <= k < |parts|
    ensures exists pre, post :: Join(parts, sep) == pre + parts[k] + post
  {
    if k == 0 {
      if |parts| == 1 {
        assert Join(parts, sep) == "" + parts[0] + "";
      } else {
        assert Join(parts, sep) == "" + parts[0] + (sep + Join(parts[1..], sep));
      }
    } else {
      JoinHasPart(parts[1..], sep, k - 1);
      var pre, post :| Join(parts[1..], sep) == pre + parts[1..][k - 1] + post;
      assert Join(parts, sep) == (parts[0] + sep + pre) + parts[k] + post;
    }
  }

  /** Index of the first `c` in `s`, or `|s|` when `s` has none. */
  function FirstIndexOf(s: string, c: char): (k: nat)
    ensures k <= |s|
    ensures c !in s[..k]
    ensures k < |s| ==> s[k] == c
  {
    if |s| == 0 then 0
    else if s[0] == c then 0
    else
      var k := 1 + FirstIndexOf(s[1..], c);
      assert s[..k] == [s[0]] + s[1..][..k - 1];
      k
  }

  /** `s.split(c)` for a one-character separator: the maximal runs of
      characters other than `c`, including the empty runs at either end and
      between adjacent separators. */
  function Split(s: string, c: char): (parts: seq<string>)
    ensures |parts| == CountChar(s, c) + 1
    ensures forall i :: 0 <= i < |parts| ==> c !in parts[i]
    ensures Join(parts, [c]) == s
    ensures parts[0] == s[..FirstIndexOf(s, c)]
  {
    if |s| == 0 then [""]
    else if s[0] == c then
      var rest := Split(s[1..], c);
      assert Join([""] + rest, [c]) == "" + [c] + Join(rest, [c]);
      assert s == [c] + s[1..];
      [""] + rest
    else
      var rest := Split(s[1..], c);
      var parts := [[s[0]] + rest[0]] + rest[1..];
      JoinHeadCons(s[0], rest, [c]);
      assert s == [s[0]] + s[1..];
      assert c !in [s[0]] + rest[0];
      parts
  }

  /** Prepending a character to the first part prepends it to the join. */
  lemma JoinHeadCons(x: char, parts: seq<string>, sep: string)
    requires |parts| >= 1
    ensures Join([[x] + parts[0]] + parts[1..], sep) == [x] + Join(parts, sep)
  {
    var q := [[x] + parts[0]] + parts[1..];
    assert q[1..] == parts[1..];
  }

  /** Splitting undoes joining when no part holds the separator. */
  lemma {:induction false} SplitJoin(parts: seq<string>, c: char)
    requires |parts| >= 1
    requires forall i :: 0 <= i < |parts| ==> c !in parts[i]
    ensures Split(Join(parts, [c]), c) == parts
    decreases |parts|, |parts[0]|
  {
    if |parts| == 1 {
      SplitNoSeparator(parts[0], c);
    } else if |parts[0]| == 0 {
      assert Join(parts, [c]) == [c] + Join(parts[1..], [c]);
      SplitSeparatorCons(Join(parts[1..], [c]), c);
      SplitJoin(parts[1..], c);
      assert parts == [""] + parts[1..];
    } else {
      var x := parts[0][0];
      var shorter := [parts[0][1..]] + parts[1..];
      assert parts[0] == [x] + parts[0][1..];
      assert c !in parts[0][1..] by {
        forall k | 0 <= k < |parts[0][1..]| ensures parts[0][1..][k] != c {
          assert parts[0][1..][k] == parts[0][k + 1];
        }
      }
      assert shorter[1..] == parts[1..];
      forall i | 0 <= i < |shorter| ensures c !in shorter[i] {
        if i > 0 { assert shorter[i] == parts[i]; }
      }
      SplitJoin(shorter, c);
      JoinHeadCons(x, shorter, [c]);
      assert [[x] + shorter[0]] + shorter[1..] == parts;
      SplitOtherCons(x, Join(shorter, [c]), c);
    }
  }

  lemma SplitSeparatorCons(s: string, c: char)
    ensures Split([c] + s, c) == [""] + Split(s, c)
  {
    assert ([c] + s)[1..] == s;
  }

  lemma SplitOtherCons(x: char, s: string, c: char)
    requires x != c
    ensures Split([x] + s, c) == [[x] + Split(s, c)[0]] + Split(s, c)[1..]
  {
    assert ([x] + s)[1..] == s;
  }

  lemma SplitNoSeparator(s: string, c: char)
    requires c !in s
    ensures Split(s, c) == [s]
  {
    CountCharAbsent(s, c);
  }

  // ---------------------------------------------------------------------
  // replace(/c/g, rep)

  /** `s.replace(/c/g, rep)` for a one-character pattern. */
  function ReplaceAll(s: string, c: char, rep: string): string {
    if |s| == 0 then ""
    else (if s[0] == c then rep else [s[0]]) + ReplaceAll(s[1..], c, rep)
  }

  /** Replacing every `c` is the same as splitting on `c` and joining the
      pieces with the replacement. */
  lemma {:induction false} ReplaceAllIsSplitJoin(s: string, c: char, rep: string)
    ensures ReplaceAll(s, c, rep) == Join(Split(s, c), rep)
  {
    if |s| > 0 {
      ReplaceAllIsSplitJoin(s[1..], c, rep);
      var rest := Split(s[1..], c);
      if s[0] == c {
        assert Split(s, c) == [""] + rest;
        assert ([""] + rest)[1..] == rest;
      } else {
        assert Split(s, c) == [[s[0]] + rest[0]] + rest[1..];
        JoinHeadCons(s[0], rest, rep);
      }
    }
  }

  /** A global replacement by text without `c` leaves no `c` behind. */
  lemma {:induction false} ReplaceAllRemoves(s: string, c: char, rep: string)
    requires c !in rep
    ensures c !in ReplaceAll(s, c, rep)
  {
    if |s| > 0 {
      ReplaceAllRemoves(s[1..], c, rep);
    }
  }

  /** Each `c` is one character that becomes `|rep|` characters. */
  lemma {:induction false} ReplaceAllLength(s: string, c: char, rep: string)
    ensures |ReplaceAll(s, c, rep)| + CountChar(s, c) == |s| + CountChar(s, c) * |rep|
  {
    if |s| > 0 {
      ReplaceAllLength(s[1..], c, rep);
      var k := CountChar(s[1..], c);
      if s[0] == c {
        assert (k + 1) * |rep| == k * |rep| + |rep|;
      }
    }
  }

  /** Every other character `d` keeps its occurrences and gains those
      carried by each copy of `rep`. */
  lemma {:induction false} ReplaceAllCountOther(s: string, c: char, rep: string, d: char)
    requires d != c
    ensures CountChar(ReplaceAll(s, c, rep), d) == CountChar(s, d) + CountChar(s, c) * CountChar(rep, d)
  {
    if |s| > 0 {
      ReplaceAllCountOther(s[1..], c, rep, d);
      var head := if s[0] == c then rep else [s[0]];
      CountCharConcat(head, ReplaceAll(s[1..], c, rep), d);
      var k := CountChar(s[1..], c);
      if s[0] == c {
        assert (k + 1) * CountChar(rep, d) == k * CountChar(rep, d) + CountChar(rep, d);
      } else {
        assert CountChar([s[0]], d) == (if s[0] == d then 1 else 0);
      }
    }
  }

  /** Deleting every occurrence of `c`. */
  function RemoveChar(s: string, c: char): (r: string)
    ensures c !in r
    ensures |r| == |s| - CountChar(s, c)
  {
    if |s| == 0 then ""
    else (if s[0] == c then "" else [s[0]]) + RemoveChar(s[1..], c)
  }

  lemma {:induction false} RemoveCharConcat(a: string, b: string, c: char)
    ensures RemoveChar(a + b, c) == RemoveChar(a, c) + RemoveChar(b, c)
  {
    if |a| == 0 {
      assert a + b == b;
    } else {
      assert (a + b)[1..] == a[1..] + b;
      RemoveCharConcat(a[1..], b, c);
    }
  }

  lemma {:induction false} RemoveCharAbsent(s: string, c: char)
    requires c !in s
    ensures RemoveChar(s, c) == s
  {
    if |s| > 0 {
      assert c !in s[1..];
      RemoveCharAbsent(s[1..], c);
      assert s == [s[0]] + s[1..];
    }
  }

  /** `parts.join('')`: the parts one after another. */
  function Flatten(parts: seq<string>): string {
    if |parts| == 0 then "" else parts[0] + Flatten(parts[1..])
  }

  /** Deleting the separators of a join leaves the parts run together,
      when no part holds the separator. */
  lemma {:induction false} RemoveSeparatorOfJoin(parts: seq<string>, c: char)
    requires forall i :: 0 <= i < |parts| ==> c !in parts[i]
    ensures RemoveChar(Join(parts, [c]), c) == Flatten(parts)
  {
    if |parts| == 1 {
      RemoveCharAbsent(parts[0], c);
      assert Flatten(parts) == parts[0] + "";
    } else if |parts| > 1 {
      RemoveSeparatorOfJoin(parts[1..], c);
      RemoveCharAbsent(parts[0], c);
      RemoveCharConcat(parts[0] + [c], Join(parts[1..], [c]), c);
      RemoveCharConcat(parts[0], [c], c);
      assert RemoveChar([c], c) == "";
    }
  }

  // ---------------------------------------------------------------------
  // trim

  function TrimStart(s: string): (r: string)
    ensures |r| <= |s| && r == s[|s| - |r|..]
    ensures forall k :: 0 <= k < |s| - |r| ==> IsWhitespace(s[k])
    ensures |r| > 0 ==> !IsWhitespace(r[0])
  {
    if |s| > 0 && IsWhitespace(s[0]) then TrimStart(s[1..]) else s
  }

  function TrimEnd(s: string): (r: string)
    ensures |r| <= |s| && r == s[..|r|]
    ensures forall k :: |r| <= k < |s| ==> IsWhitespace(s[k])
    ensures |r| > 0 ==> !IsWhitespace(r[|r| - 1])
  {
    if |s| > 0 && IsWhitespace(s[|s| - 1]) then TrimEnd(s[..|s| - 1]) else s
  }

  /** `s.trim()`: `s` without its leading and trailing whitespace. */
  function Trim(s: string): (r: string)
    ensures exists i :: TrimmedAt(s, r, i)
    ensures |r| > 0 ==> !IsWhitespace(r[0]) && !IsWhitespace(r[|r| - 1])
  {
    TrimBothEnds(s);
    TrimEnd(TrimStart(s))
  }

  /** Trimming the start and then the end leaves the middle part. */
  lemma TrimBothEnds(s: string)
    ensures TrimmedAt(s, TrimEnd(TrimStart(s)), |s| - |TrimStart(s)|)
    ensures |TrimEnd(TrimStart(s))| > 0 ==> TrimEnd(TrimStart(s))[0] == TrimStart(s)[0]
  {
    var t := TrimStart(s);
    WhitespaceAround(s, t, TrimEnd(t), |s| - |t|);
  }

  lemma WhitespaceAround(s: string, t: string, r: string, i: int)
    requires 0 <= i <= |s| && t == s[i..]
    requires forall k :: 0 <= k < i ==> IsWhitespace(s[k])
    requires |r| <= |t| && r == t[..|r|]
    requires forall k :: |r| <= k < |t| ==> IsWhitespace(t[k])
    ensures TrimmedAt(s, r, i)
  {
    assert r == s[i..i + |r|];
    forall k | i + |r| <= k < |s| ensures IsWhitespace(s[k]) {
      assert s[k] == t[k - i];
    }
  }

  /** `r` is the part of `s` that starts at `i` and has only whitespace
      before and after it in `s`. */
  predicate TrimmedAt(s: string, r: string, i: int) {
    && 0 <= i <= |s| - |r| && r == s[i..i + |r|]
    && (forall k :: 0 <= k < i ==> IsWhitespace(s[k]))
    && (forall k :: i + |r| <= k < |s| ==> IsWhitespace(s[k]))
  }

  // ---------------------------------------------------------------------
  // toLowerCase / includes

  function LowerChar(c: char): char {
    if 'A' <= c <= 'Z' then (c as int + 32) as char else c
  }

  /** `s.toLowerCase()` restricted to ASCII letters. */
  function Lower(s: string): (r: string)
    ensures |r| == |s|
    ensures forall i :: 0 <= i < |s| ==> r[i] == LowerChar(s[i])
  {
    seq(|s|, i requires 0 <= i < |s| => LowerChar(s[i]))
  }

  lemma LowerConcat(a: string, b: string)
    ensures Lower(a + b) == Lower(a) + Lower(b)
  {
  }

  /** `hay.includes(needle)`: `needle` occurs contiguously in `hay`. */
  predicate Contains(hay: string, needle: string) {
    exists i | 0 <= i <= |hay| - |needle| :: OccursAt(hay, needle, i)
  }

  predicate OccursAt(hay: string, needle: string, i: int) {
    0 <= i && i + |needle| <= |hay| && hay[i..i + |needle|] == needle
  }

  lemma ContainsEmpty(hay: string)
    ensures Contains(hay, "")
  {
    assert OccursAt(hay, "", 0);
  }

  /** An occurrence in a piece is an occurrence in anything that surrounds it. */
  lemma ContainsWithin(pre: string, mid: string, post: string, needle: string)
    requires Contains(mid, needle)
    ensures Contains(pre + mid + post, needle)
  {
    var i :| 0 <= i <= |mid| - |needle| && OccursAt(mid, needle, i);
    var whole := pre + mid + post;
    var j := |pre| + i;
    assert whole[j..j + |needle|] == mid[i..i + |needle|];
    assert OccursAt(whole, needle, j);
  }

  // ---------------------------------------------------------------------
  // numbers as decimal text

  function DigitChar(d: nat): (c: char)
    requires d < 10
    ensures IsDigit(c)
  {
    ('0' as int + d) as char
  }

  function DigitValue(c: char): nat
    requires IsDigit(c)
  {
    c as int - '0' as int
  }

  /** `String(n)` for a non-negative integer: its decimal digits, most
      significant first, with no leading zero. */
  function NatToDecimal(n: nat): (r: string)
    ensures |r| >= 1 && AllDigits(r)
    ensures r[0] == '0' ==> n == 0 && |r| == 1
  {
    if n < 10 then [DigitChar(n)]
    else NatToDecimal(n / 10) + [DigitChar(n % 10)]
  }

  /** `String(n)` for any integer: a minus sign before the magnitude. */
  function IntToDecimal(n: int): string {
    if n < 0 then "-" + NatToDecimal(-n) else NatToDecimal(n)
  }

  /** The value of a string of decimal digits. */
  function DecimalValue(s: string): nat
    requires AllDigits(s)
  {
    if |s| == 0 then 0 else 10 * DecimalValue(s[..|s| - 1]) + DigitValue(s[|s| - 1])
  }

  lemma {:induction false} DecimalRoundTrip(n: nat)
    ensures DecimalValue(NatToDecimal(n)) == n
  {
    if n >= 10 {
      DecimalRoundTrip(n / 10);
      var r := NatToDecimal(n);
      assert r[..|r| - 1] == NatToDecimal(n / 10);
    }
  }

  /** The decimal rendering is one-to-one. */
  lemma DecimalInjective(m: nat, n: nat)
    requires NatToDecimal(m) == NatToDecimal(n)
    ensures m == n
  {
    DecimalRoundTrip(m);
    DecimalRoundTrip(n);
  }

  /** Length of the run of digits that starts `s`. */
  function LeadingDigits(s: string): (k: nat)
    ensures k <= |s| && AllDigits(s[..k])
    ensures k < |s| ==> !IsDigit(s[k])
  {
    if |s| == 0 || !IsDigit(s[0]) then 0
    else
      var k := 1 + LeadingDigits(s[1..]);
      assert s[..k] == [s[0]] + s[1..][..k - 1];
      k
  }

  lemma {:induction false} LeadingDigitsOfDecimal(d: string, x: string)
    requires AllDigits(d)
    requires |x| == 0 || !IsDigit(x[0])
    ensures LeadingDigits(d + x) == |d|
  {
    if |d| > 0 {
      assert (d + x)[1..] == d[1..] + x;
      LeadingDigitsOfDecimal(d[1..], x);
    }
  }

  predicate IsHexDigit(c: char) {
    IsDigit(c) || 'a' <= c <= 'f' || 'A' <= c <= 'F'
  }

  function HexDigitValue(c: char): (v: nat)
    requires IsHexDigit(c)
    ensures v < 16
  {
    if IsDigit(c) then DigitValue(c)
    else if 'a' <= c <= 'f' then c as int - 'a' as int + 10
    else c as int - 'A' as int + 10
  }

  predicate AllHexDigits(s: string) {
    forall i :: 0 <= i < |s| ==> IsHexDigit(s[i])
  }

  /** Length of the run of hexadecimal digits that starts `s`. */
  function LeadingHexDigits(s: string): (k: nat)
    ensures k <= |s| && AllHexDigits(s[..k])
    ensures k < |s| ==> !IsHexDigit(s[k])
  {
    if |s| == 0 || !IsHexDigit(s[0]) then 0
    else
      var k := 1 + LeadingHexDigits(s[1..]);
      assert s[..k] == [s[0]] + s[1..][..k - 1];
      k
  }

  /** The value of a string of hexadecimal digits. */
  function HexValue(s: string): nat
    requires AllHexDigits(s)
  {
    if |s| == 0 then 0 else 16 * HexValue(s[..|s| - 1]) + HexDigitValue(s[|s| - 1])
  }

  /** `parseInt(s)` with no radix, as section 19.2.5 of ECMAScript 2024
      defines it: leading whitespace is skipped, then one optional sign; a
      `0x` or `0X` prefix selects base 16, anything else base 10; the
      result is the value of the longest run of digits of that base, negated
      after a minus, and `None` (`NaN`) when that run is empty. */
  function ParseInt(s: string): Option<int> {
    ParseSigned(TrimStart(s))
  }

  /** `parseInt` after the leading whitespace: the sign, then the rest. */
  function ParseSigned(t: string): Option<int> {
    var negative := |t| > 0 && t[0] == '-';
    var u := if |t| > 0 && (t[0] == '-' || t[0] == '+') then t[1..] else t;
    match ParseMagnitude(u)
    case Some(v) => Some(if negative then -(v as int) else v as int)
    case None => None
  }

  /** The unsigned part of `parseInt`: the base prefix, then the digits. */
  function ParseMagnitude(u: string): Option<nat> {
    if |u| >= 2 && u[0] == '0' && (u[1] == 'x' || u[1] == 'X') then ParseHexDigits(u[2..])
    else ParseDigits(u)
  }

  function ParseDigits(s: string): Option<nat> {
    var k := LeadingDigits(s);
    if k == 0 then None else Some(DecimalValue(s[..k]))
  }

  function ParseHexDigits(s: string): Option<nat> {
    var k := LeadingHexDigits(s);
    if k == 0 then None else Some(HexValue(s[..k]))
  }

  /** `parseInt` reads back the decimal text of any integer, whatever
      text follows it, unless that text begins with a digit, or the integer
      is 0 and the text begins with `x` or `X` (then the whole reads as a
      hexadecimal prefix). */
  lemma ParseIntOfDecimal(n: int, x: string)
    requires |x| == 0 || !IsDigit(x[0])
    requires n != 0 || |x| == 0 || (x[0] != 'x' && x[0] != 'X')
    ensures ParseInt(IntToDecimal(n) + x) == Some(n)
  {
    if n < 0 {
      NegativeDecimalText(n, x);
      ParseIntOfNegative(n, x);
    } else {
      ParseIntOfNatural(n, x);
    }
  }

  lemma NegativeDecimalText(n: int, x: string)
    requires n < 0
    ensures IntToDecimal(n) + x == "-" + (NatToDecimal(-n) + x)
  {
  }

  lemma ParseIntOfNegative(n: int, x: string)
    requires n < 0 && (|x| == 0 || !IsDigit(x[0]))
    ensures ParseInt("-" + (NatToDecimal(-n) + x)) == Some(n)
  {
    var t := NatToDecimal(-n) + x;
    MagnitudeOfDecimal(-n, x);
    ParseSignedNegated(t, n);
    var u := "-" + t;
    assert u[0] == '-';
    ParseIntNoLeadingSpace(u);
  }

  lemma ParseIntOfNatural(m: nat, x: string)
    requires |x| == 0 || !IsDigit(x[0])
    requires m != 0 || |x| == 0 || (x[0] != 'x' && x[0] != 'X')
    ensures ParseInt(NatToDecimal(m) + x) == Some(m)
  {
    var t := NatToDecimal(m) + x;
    MagnitudeOfDecimal(m, x);
    assert t[0] == NatToDecimal(m)[0];
    ParseSignedUnsigned(t, m);
    ParseIntNoLeadingSpace(t);
  }

  lemma ParseSignedUnsigned(t: string, v: nat)
    requires |t| > 0 && IsDigit(t[0])
    requires ParseMagnitude(t) == Some(v)
    ensures ParseSigned(t) == Some(v as int)
  {
  }

  lemma ParseIntNoLeadingSpace(s: string)
    requires |s| > 0 && !IsWhitespace(s[0])
    ensures ParseInt(s) == ParseSigned(s)
  {
    TrimStartUnchanged(s);
  }

  lemma ParseSignedNegated(t: string, n: int)
    requires n < 0 && ParseMagnitude(t) == Some(-n)
    ensures ParseSigned("-" + t) == Some(n)
  {
    var u := "-" + t;
    assert u[0] == '-' && u[1..] == t;
  }

  lemma TrimStartUnchanged(s: string)
    requires |s| > 0 && !IsWhitespace(s[0])
    ensures TrimStart(s) == s
  {
  }

  lemma MagnitudeOfDecimal(m: nat, x: string)
    requires |x| == 0 || !IsDigit(x[0])
    requires m != 0 || |x| == 0 || (x[0] != 'x' && x[0] != 'X')
    ensures ParseMagnitude(NatToDecimal(m) + x) == Some(m)
  {
    var d := NatToDecimal(m);
    var t := d + x;
    ParseDigitsOfDecimal(m, x);
    if |t| >= 2 && t[0] == '0' {
      assert |d| == 1 && t[1] == x[0];
    }
  }

  /** Whitespace before the number changes nothing. */
  lemma ParseIntSkipsWhitespace(w: string, s: string)
    requires forall i :: 0 <= i < |w| ==> IsWhitespace(w[i])
    ensures ParseInt(w + s) == ParseInt(s)
  {
    TrimStartSkips(w, s);
  }

  lemma {:induction false} TrimStartSkips(w: string, s: string)
    requires forall i :: 0 <= i < |w| ==> IsWhitespace(w[i])
    ensures TrimStart(w + s) == TrimStart(s)
  {
    if |w| > 0 {
      assert (w + s)[0] == w[0] && (w + s)[1..] == w[1..] + s;
      TrimStartSkips(w[1..], s);
    } else {
      assert w + s == s;
    }
  }

  /** Examples: the hexadecimal prefix, a sign after whitespace with
      trailing text, a plus sign, and text with no digits. */
  lemma ParseIntHexExample()
    ensures ParseInt("0x1A") == Some(26)
  {
    var h := "0x1A";
    TrimStartUnchanged(h);
    assert h[2..] == "1A";
    assert LeadingHexDigits("1A") == 2 by {
      assert "1A"[1..] == "A" && "A"[1..] == "";
    }
    assert "1A"[..2] == "1A";
    assert HexValue("1A") == 16 * HexValue("1") + 10 by {
      assert "1A"[..1] == "1";
    }
    assert HexValue("1") == 1 by { assert "1"[..0] == ""; }
  }

  lemma ParseIntSignExample()
    ensures ParseInt(" -12px") == Some(-12)
  {
    var q := "-12px";
    assert " -12px" == " " + q;
    assert NatToDecimal(12) == "12" by { assert NatToDecimal(1) == "1"; }
    assert IntToDecimal(-12) + "px" == q;
    ParseIntOfDecimal(-12, "px");
    ParseIntSkipsWhitespace(" ", q);
  }

  lemma ParseIntPlusExample()
    ensures ParseInt("+7") == Some(7)
  {
    var p := "+7";
    TrimStartUnchanged(p);
    assert p[1..] == "7";
    assert LeadingDigits("7") == 1 by { assert "7"[1..] == ""; }
    assert "7"[..1] == "7";
    assert DecimalValue("7") == 7 by { assert "7"[..0] == ""; }
  }

  lemma ParseIntNoDigitsExample()
    ensures ParseInt("px") == None
  {
    TrimStartUnchanged("px");
  }

  lemma ParseDigitsOfDecimal(m: nat, x: string)
    requires |x| == 0 || !IsDigit(x[0])
    ensures ParseDigits(NatToDecimal(m) + x) == Some(m)
  {
    var d := NatToDecimal(m);
    LeadingDigitsOfDecimal(d, x);
    assert (d + x)[..|d|] == d;
    DecimalRoundTrip(m);
  }

  /** A run of digits followed by a non-digit is determined by the text:
      if two such texts agree, so do their digit runs. */
  lemma DigitPrefixUnique(d1: string, x1: string, d2: string, x2: string)
    requires AllDigits(d1) && AllDigits(d2)
    requires |x1| > 0 && !IsDigit(x1[0]) && |x2| > 0 && !IsDigit(x2[0])
    requires d1 + x1 == d2 + x2
    ensures d1 == d2 && x1 == x2
  {
    LeadingDigitsOfDecimal(d1, x1);
    LeadingDigitsOfDecimal(d2, x2);
    assert d1 == (d1 + x1)[..|d1|];
    assert d2 == (d2 + x2)[..|d2|];
    assert x1 == (d1 + x1)[|d1|..];
    assert x2 == (d2 + x2)[|d2|..];
  }
}
